=== FILE: README.md ===
# Klondike and brick-breaker game logic in Dafny

This project models the game logic of two browser games from a personal
web site and proves properties about it.

- **Klondike solitaire** (`solitaire.js`). The board is a stock, a waste,
  four foundations and seven tableau piles of card records. The model
  covers:
  - the 52-card deck and its Fisher-Yates shuffle;
  - the opening deal;
  - the drop rule `canDrop`;
  - the stack move `moveStack`, with its flip of the newly exposed tableau
    card and its win check;
  - the stock click `onStockClick` (draw, or recycle the waste);
  - drag selection in `beginCardDrag` and the drop gate in `handleDragUp`;
  - auto-play to a foundation, `tryAutoFoundation`.
- **Brick breaker** (`brickbreaker.js`). The model is the game's discrete
  state machine:
  - the integer rows and columns a level gets;
  - the brick grid `buildLevel` builds;
  - the 50 points per brick, and the one-brick-per-frame `break`;
  - level-up with lives capped at 5;
  - `loseLife` and game over;
  - `reset`.

  Which bricks the ball overlaps, and whether it fell out, arrive as an
  oracle with each frame.

Everything is pure functions over immutable datatypes:

| file | module | contents |
|---|---|---|
| `wrappers.dfy` | `Wrappers` | `Option` |
| `cards.dfy` | `Cards` | suits, colours, pile references, cards, `CreateDeck`, `Shuffle` |
| `klondike.dfy` | `Klondike` | the board `Game` and every operation: `CanDrop`, `MoveStack`, `Draw`, `BeginDrag`, `Drop`, `AutoFoundation`, `Deal`, `NewGame`, the player `Action`s and `Play` |
| `conservation.dfy` | `Conservation` | every operation keeps each card's count; a new game, and every board reachable from it, holds each of the 52 cards exactly once |
| `invariants.dfy` | `KlondikeProofs` | the board invariant `Valid`; it holds after the deal and is kept by every action |
| `rules.dfy` | `KlondikeRules` | what the rules mean on a valid board: the drop rule as an if-and-only-if, drag eligibility, auto-play, and the win test |
| `brickbreaker.dfy` | `BrickBreaker` | layout, grid, reset, collisions, level-up, life loss, and the invariant kept by every event |

Modelling choices:

- **Cards.** A card keeps its identity (`id`, `suit`, `value`, `color`).
  Its `faceUp` flag and its `location` change as it moves, as the source's
  card records do. `Strip(c)` is the card as printed, with those two fields
  cleared. Card conservation counts printed cards, so a card that is turned
  over or relocated is still the same card.
- **Pile indices.** The stock and the waste are `Stock` and `Waste`. The
  source addresses them with the index 0, which never varies.
- **Random shuffle.** `Math.random` becomes a caller-supplied sequence
  `picks`. `picks[i]` is the index in `0..i` that step `i` of the
  Fisher-Yates loop swaps with. `Math.floor(Math.random()*(i+1))` is
  exactly such an index.
- **Win mark.** The `is-complete` class on the board element becomes the
  flag `Game.complete`.
- **Brick-breaker timers.** The level-up and try-again notes are blanked by
  timers. These become a `Timeout` event that can fire at any moment.
  Because of this, the invariant does not claim that a stopped game still
  shows the game-over banner. A try-again or level-up timer that fires
  after the last life is lost blanks that banner in the source as well.

Arithmetic needs no special care:

- Card values stay in 1..13, and brick-breaker levels, lives and scores
  are small integers, so nothing overflows or wraps.
- `Math.floor(level / 2)` equals Dafny's `level / 2`, because the divisor
  is positive.

## Model

| member | source | states |
|---|---|---|
| Cards.CreateDeck | solitaire.js:23-43 | 52 cards, face-down and with no location, with ids 0..51 in build order and values 1..13; red exactly for hearts and diamonds; no (suit, value) pair appears twice |
| Cards.DeckHasEveryCard | solitaire.js:23-43 | every (suit, value 1..13) pair appears in the fresh deck |
| Cards.Swap | solitaire.js:18 | the destructuring swap exchanges two entries, leaves the others alone, and keeps the multiset |
| Cards.ShuffleDown | solitaire.js:16-19 | steps i down to 1 of the Fisher-Yates loop keep the length and the multiset, whatever index in 0..i each step draws |
| Cards.Shuffle | solitaire.js:15-21 | the shuffle returns a permutation (same multiset) of its input for every sequence of random draws |
| Cards.ShuffledDeckIsPrinted | solitaire.js:15-43 | a shuffled fresh deck still holds only cards in their printed state |
| Klondike.Pile | solitaire.js:157-165 | the stock and the waste name their arrays; a foundation or tableau index names that pile, and an index past the last pile gives an empty pile |
| Klondike.CanDrop | solitaire.js:327-353 | an accepted drop carries a non-empty stack onto a foundation or a tableau pile; a foundation takes one card, an Ace when empty and otherwise the next value of its suit; a tableau pile takes a King when empty and otherwise a stack whose first card is one below the face-up top and of the other colour; an Ace onto an empty foundation and a King onto an empty tableau pile are always accepted |
| Klondike.Won | solitaire.js:670-672 | the game is won exactly when the four foundations together hold 52 cards |
| Klondike.CheckWin | solitaire.js:377-379 | the win check after a move changes no pile; it sets the completion mark when the move went to a foundation and left the game won, keeps a mark already set, and sets it in no other case |
| Klondike.SetPile | solitaire.js:356-362 | replacing one pile sets exactly that pile and leaves every other pile and the win mark alone |
| Klondike.Relocate | solitaire.js:358-360 | the moved cards keep their order, identity and face, and each gets the destination as its location |
| Klondike.FlipTop | solitaire.js:364-369 | only the top card changes, and it becomes face-up; an empty pile is unchanged |
| Klondike.Push | solitaire.js:361-362 | the destination becomes its old cards followed by the moved cards, relocated; no other pile changes |
| Klondike.ExposeTop | solitaire.js:364-369 | a tableau source gets its top turned face-up; any other source, and every other pile, is unchanged |
| Klondike.Cut | solitaire.js:357 | `splice(startIdx)` cuts at `startIdx` when that lies within the pile, and at the end of the pile when it lies past it |
| Klondike.MoveStack | solitaire.js:355-380 | the source keeps `p[..k]`, with its new top flipped face-up when it is a tableau pile; the destination gains `p[k..]` in order, relocated; other piles are untouched; a move within one pile puts the cut-off cards back relocated and exposes the top; the win mark is set exactly when it was set already or a foundation drop leaves 52 cards on the foundations |
| Klondike.Recycle | solitaire.js:691-699 | the rebuilt stock is the waste reversed, every card face-down and located in the stock |
| Klondike.Draw | solitaire.js:681-703 | a non-empty stock turns its last card face-up onto the waste; an empty stock takes the reversed, face-down waste, and the waste empties; with both empty nothing changes; foundations and tableau never change |
| Klondike.IndexOf | solitaire.js:544 | `indexOf` returns the first position holding the card, or -1 exactly when the card is absent |
| Klondike.BeginDrag | solitaire.js:538-549 | a drag starts only from a face-up card that lies in the pile its location names; it carries the card and everything above it, all face-up, and from a non-tableau pile only the top card; conversely every such press starts exactly that drag |
| Klondike.Drop | solitaire.js:460-467 | releasing a drag changes the board only when a target exists and the drop rule accepts the carried stack; then the board is the stack move |
| Klondike.FirstFoundation | solitaire.js:387-392 | finds the lowest-indexed foundation that accepts the single card, or reports that none does |
| Klondike.AutoFoundation | solitaire.js:382-394 | only a face-up card on top of its own pile moves, and it goes to the first accepting foundation in index order; when such a foundation exists the card does move; otherwise nothing changes |
| Klondike.Stocked | solitaire.js:715-719 | the deck is placed in the stock in order, every card face-down and located in the stock |
| Klondike.PopTo | solitaire.js:723-728 | one deal step pops the stock's last card onto the column, face-up as asked and relocated; an empty stock leaves the board unchanged |
| Klondike.Opening | solitaire.js:713-719 | the deck goes into the stock card for card, in order; every other pile is empty and the board is not marked complete |
| Klondike.DealColumn | solitaire.js:722-729 | dealing rows `row..col` of column `col` takes `col+1-row` cards off the stock and adds them to that column; no other pile and not the win mark changes |
| Klondike.DealFrom | solitaire.js:721-730 | dealing columns `col..6` gives column c exactly c+1 more cards, takes that many off the stock, and leaves the lower columns, the waste, the foundations and the win mark alone |
| Klondike.Deal | solitaire.js:713-730 | a deck of at least 28 cards leaves 28 fewer in the stock and c+1 cards in column c; the waste and the foundations are empty and the board is not complete |
| Klondike.NewGame | solitaire.js:712-730 | a new game has 24 cards in the stock, c+1 in column c, an empty waste and empty foundations, and is not complete |
| Klondike.Apply | solitaire.js:656-665 | each action is the handler it stands for: a stock click is `onStockClick` (lines 681-703) and never touches foundations or tableau; a press that starts a drag is followed by its drop (lines 538-549, 460-467), and a press that starts none changes nothing; an auto-play is `tryAutoFoundation` (lines 382-394), and one of a face-down card changes nothing; no action clears the completion mark |
| Klondike.Play | solitaire.js:670-679 | over any sequence of actions the completion mark, once set, stays set (the source only ever adds the class) |
| Conservation.MoveStackConserves | solitaire.js:355-380 | a stack move keeps the board's size and every card's count |
| Conservation.DrawConserves | solitaire.js:681-703 | a stock click keeps the board's size and every card's count |
| Conservation.RecycleConserves | solitaire.js:691-699 | turning the waste over keeps every card's count |
| Conservation.PopToConserves | solitaire.js:723-728 | a deal step keeps the board's size and every card's count |
| Conservation.DealCount | solitaire.js:713-730 | the deal lays out exactly the cards of the deck |
| Conservation.DealSize | solitaire.js:713-730 | the deal lays out exactly as many cards as the deck holds |
| Conservation.ShuffledOcc | solitaire.js:15-21 | the shuffled deck has the same count of every card as the fresh one |
| Conservation.NewGameHoldsDeck | solitaire.js:713-730 | a new game's board holds each of the 52 cards once and nothing else |
| Conservation.ApplyConserves | solitaire.js:355-394 | each player action (stock click, drag and drop, auto-play) conserves the cards |
| Conservation.PlayConserves | solitaire.js:355-394 | any sequence of player actions conserves the cards |
| Conservation.ReachableHoldsDeck | solitaire.js:355-394 | every board reachable from a new game holds exactly the 52 cards |
| KlondikeProofs.Column | solitaire.js:721-729 | column c of the deal holds c+1 cards popped off the end of the deck, with only its last card face-up |
| KlondikeProofs.DealColumnShape | solitaire.js:722-729 | dealing one column pops that many stock cards onto it, top first, and changes no other pile |
| KlondikeProofs.DealShape | solitaire.js:713-730 | after the deal the stock holds the bottom 24 cards of the deck, face-down; column c holds c+1 cards with only the top face-up; the waste and the foundations are empty |
| KlondikeProofs.DealPilesOk | solitaire.js:713-730 | every pile of a fresh deal satisfies its shape rule |
| KlondikeProofs.NewGameValid | solitaire.js:713-730 | a new game satisfies the full board invariant |
| KlondikeProofs.DrawValid | solitaire.js:681-703 | a stock click keeps the board invariant |
| KlondikeProofs.DrawNShape | solitaire.js:682-689 | n draws move the stock's top n cards, top first and face-up, onto the waste |
| KlondikeProofs.RecycleThenDrawAll | solitaire.js:681-703 | with an empty stock, recycling the waste and then drawing every card restores the board exactly, with the waste in its original order |
| KlondikeProofs.OnBoardIsDeckCard | solitaire.js:23-43 | on a valid board every card is, as printed, a card of the fresh deck, with value 1..13 |
| KlondikeProofs.NoRepeats | solitaire.js:544 | no pile of a valid board holds the same card twice |
| KlondikeProofs.FirstIndexIsIndex | solitaire.js:544 | on a valid board `indexOf` finds every card at its own position |
| KlondikeProofs.ValidVisible | solitaire.js:327-350 | on a board that satisfies the invariant `Valid`, the top card of every pile but the stock is face-up, and every non-empty foundation starts with an Ace, which is what `canDrop` relies on |
| KlondikeProofs.NoDropOnOwnPile | solitaire.js:327-353 | the drop rule never accepts a stack cut from a valid pile onto that same pile |
| KlondikeProofs.SourceAfterOk | solitaire.js:357-369 | what a move leaves behind in a valid source pile is a valid pile once its top is exposed |
| KlondikeProofs.MovingRun | solitaire.js:538-549 | a stack cut from a valid pile keeps the run rule on its face-up cards; a cut that is all face-up, as every dragged stack is (lines 548-549), is a descending run of alternating colours |
| KlondikeProofs.FoundationPushOk | solitaire.js:331-340 | a card the drop rule accepts keeps a foundation an Ace-upward run of one suit |
| KlondikeProofs.TableauPushOk | solitaire.js:342-350 | a run the drop rule accepts keeps a tableau pile's face-down prefix and descending alternating-colour run |
| KlondikeProofs.DestAfterOk | solitaire.js:327-362 | the destination of an accepted drop is still a valid pile |
| KlondikeProofs.MoveValid | solitaire.js:355-380 | a stack move of an accepted run keeps the board invariant |
| KlondikeProofs.DragValid | solitaire.js:460-467 | a drag and drop keeps the board invariant |
| KlondikeProofs.AutoPlayValid | solitaire.js:382-394 | auto-play keeps the board invariant |
| KlondikeProofs.AutoPlayMoved | solitaire.js:382-394 | an auto-play that goes ahead moved a face-up top card of its own pile to the first foundation that accepts it |
| KlondikeProofs.TopToFoundationValid | solitaire.js:382-394 | moving the face-up top card of a pile onto a foundation that accepts it keeps the board invariant |
| KlondikeProofs.ApplyValid | solitaire.js:355-394 | every player action keeps the board invariant |
| KlondikeProofs.PlayValid | solitaire.js:355-394 | any sequence of player actions keeps the board invariant |
| KlondikeProofs.ReachableValid | solitaire.js:355-394 | every board reachable from a new game has single-suit Ace-upward foundations, face-down tableau prefixes under a face-up alternating descending run, a face-down stock, a face-up waste, every card's location naming its pile, and each card exactly once |
| KlondikeRules.FoundationDropIff | solitaire.js:331-340 | a face-up card drops on a valid foundation exactly when the foundation stays an Ace-upward run of one suit |
| KlondikeRules.FoundationTakesOneCard | solitaire.js:333 | a foundation accepts only a single card (a corollary of `Klondike.CanDrop`) |
| KlondikeRules.TableauDropIff | solitaire.js:342-350 | a face-up run drops on a valid tableau pile exactly when the pile is empty and the run starts with a King, or the pile stays valid with the run on top |
| KlondikeRules.NoDropOnStockOrWaste | solitaire.js:328-329 | nothing is ever dropped on the stock or the waste (a corollary of `Klondike.CanDrop`) |
| KlondikeRules.DragEligible | solitaire.js:538-549 | on a valid board every face-up tableau card, and the top card of the waste or a foundation, starts a drag of itself and everything above it |
| KlondikeRules.StockNotDraggable | solitaire.js:539 | no stock card can be picked up on a valid board |
| KlondikeRules.AutoPlayTop | solitaire.js:382-394 | auto-playing the top card of a non-stock pile moves it exactly when some foundation accepts it |
| KlondikeRules.WonIffCleared | solitaire.js:670-672 | on a valid board the foundations total 52 exactly when stock, waste and tableau are empty |
| KlondikeRules.WonFoundationsFull | solitaire.js:670-672 | a won valid board has thirteen cards on every foundation |
| KlondikeRules.TableauMoveNoGain | solitaire.js:355-380 | a move onto a tableau pile never adds to the foundations |
| KlondikeRules.CompleteOnlyOnWin | solitaire.js:377-379 | an action sets the completion mark only on a board it leaves won |
| KlondikeRules.WinSetsComplete | solitaire.js:377-379 | an action that wins the game always sets the completion mark |
| BrickBreaker.Clamp | brickbreaker.js:25 | the result lies in [lo, hi], equals the value inside that range, and is the nearer bound outside it |
| BrickBreaker.ComputeLayout | brickbreaker.js:127-129 | rows are 3 + level and columns 8 + level/2 until they reach their caps; rows always lie in 3..8 and columns in 8..11 |
| BrickBreaker.LayoutMonotone | brickbreaker.js:127-129 | a higher level never has fewer rows or columns |
| BrickBreaker.LayoutSaturates | brickbreaker.js:127-129 | from level 6 on every level has 8 rows and 11 columns |
| BrickBreaker.RowOf | brickbreaker.js:153-164 | one row of the grid holds the columns in order, every brick alive with palette (row + col) mod 7 |
| BrickBreaker.Grid | brickbreaker.js:150-166 | rows*columns bricks in row-major order, each inside the grid, alive, with palette (row + col) mod 7 |
| BrickBreaker.GridUnique | brickbreaker.js:152-165 | no grid cell holds two bricks |
| BrickBreaker.GridCovers | brickbreaker.js:152-165 | every grid cell holds a brick |
| BrickBreaker.BuildLevel | brickbreaker.js:150-166 | the layout of the current level and its fresh grid; nothing else changes |
| BrickBreaker.Reset | brickbreaker.js:195-207 | a full reset gives score 0, level 1 and 3 lives; a partial one keeps them; both resume play with an empty message and a fresh grid |
| BrickBreaker.LoseLife | brickbreaker.js:362-381 | lives drop by one; at zero or below they are set to 0 and play stops with the game-over banner; otherwise the running flag is kept and the try-again note shows |
| BrickBreaker.FirstHit | brickbreaker.js:305-313 | finds the first standing brick the ball overlaps, or reports that there is none |
| BrickBreaker.Knocked | brickbreaker.js:326 | the number of knocked-out bricks never exceeds the number of bricks |
| BrickBreaker.KnockOne | brickbreaker.js:326 | knocking out a standing brick adds exactly one to the knocked-out count |
| BrickBreaker.NoneKnocked | brickbreaker.js:150-166 | a grid of standing bricks has none knocked out |
| BrickBreaker.HitBrick | brickbreaker.js:304-331 | a pass knocks out at most one brick, the first standing brick the ball overlaps, and does knock one out when any exists; the score rises by 50 per brick knocked out; no brick stands up again; nothing else changes |
| BrickBreaker.Collide | brickbreaker.js:304-346 | with bricks left the pass is the scan alone; when none stand, the level goes up by one, lives become min(lives + 1, 5), the level-up note shows and the next level's grid is built |
| BrickBreaker.Frame | brickbreaker.js:242-284 | a stopped game or a frame more than 40 ms late changes nothing; clearing the last brick levels up (lives min(lives + 1, 5), level-up note) and no life is lost in that frame, since the ball is back on the paddle; otherwise the level and layout stay; a fallen ball is `loseLife` applied after the scan, so the scan's score and bricks stand, and at the last life play stops with the game-over banner while otherwise the try-again note shows; a ball still in play leaves only the scan's effect |
| BrickBreaker.Step | brickbreaker.js:82-84 | space restarts only a stopped game (key handler, lines 82-84); the restart button always restarts (lines 613-615); a message timer (lines 341-344 and 377-380) blanks the status line and changes nothing else |
| BrickBreaker.Start | brickbreaker.js:28-71 | the constructed game is running with score 0, level 1, 3 lives, no message, and a 4-by-8 grid of 32 standing bricks |
| BrickBreaker.ResetInv | brickbreaker.js:195-207 | a full reset establishes the invariant |
| BrickBreaker.StartInv | brickbreaker.js:28-71 | the constructed game satisfies the invariant |
| BrickBreaker.HitBrickInv | brickbreaker.js:304-331 | the scan keeps the score a non-negative multiple of 50 and the bricks on the grid |
| BrickBreaker.CollideInv | brickbreaker.js:304-346 | a collision pass in a running game keeps the invariant and keeps the game running |
| BrickBreaker.LevelUpInv | brickbreaker.js:333-346 | levelling up keeps the invariant, lives included at the cap of 5 |
| BrickBreaker.LoseLifeInv | brickbreaker.js:362-381 | losing a life keeps the invariant |
| BrickBreaker.StepInv | brickbreaker.js:242-284 | every frame keeps the invariant, and so do the space key (lines 82-84), the restart button (lines 613-615) and the level-up and try-again timers (lines 341-344 and 377-380) |
| BrickBreaker.RunInv | brickbreaker.js:242-284 | every sequence of frames, space presses (lines 82-84), restarts (lines 613-615) and timer firings (lines 341-344 and 377-380) keeps the invariant |
| BrickBreaker.Reachable | brickbreaker.js:195-207 | from the constructed game, whatever happens, lives stay in 0..5, the level at least 1, and the score a non-negative multiple of 50 |

## Left out

- Rendering and the DOM in `solitaire.js` are not modelled. This covers:
  - card elements and the DOM side of `setCardFace`;
  - `renderPile`, `renderAll`, the metrics code and the drag ghost;
  - the `You Won` title text.

  These are presentation only.
- `resolveDropTarget` is not modelled. It is browser hit-testing, so the
  drop target is an input of `Drop`. That target must name one of the
  thirteen piles, because `canDrop` indexes the pile arrays unguarded.
- Pointer, mouse and touch plumbing is not modelled: listener
  registration, pointer capture, `stopDrag`, and the non-primary mouse
  button guard in `beginCardDrag`. These are event plumbing.
- A drag's press and release form one action on one board. In the source
  another action, such as a double-click auto-play, could run while a drag
  is held. The drop would then test and move a stale selection. That
  interleaving is not modelled.
- `Math.random` in the shuffle is replaced by the `picks` argument. Its
  other uses, the ball's launch angle and the explosion particles, are
  physics and are left out with it.
- The brick-breaker physics is not modelled:
  - ball, paddle and particle motion;
  - collision geometry and the ball's reflection;
  - the float gap and size fields of `computeLayout`;
  - canvas drawing, audio, `resize`, and the `requestAnimationFrame` clock.

  These are floating-point numerics or I/O. Each frame instead receives
  three oracle values:
  - whether it came more than 40 ms after the last one (the `delta > 0.04`
    test);
  - the set of bricks the ball overlaps;
  - whether the ball fell below the board. This is consulted only when
    bricks are left: a level-up puts the ball back on the paddle first.
- Message text is not modelled. The four status strings are the values of
  `Message`, and the HUD callbacks are not modelled.
- `BrickBreaker.Reset` is modelled for both values of `full`, but the
  source only ever calls `reset(true)`.
- `script.js` is not part of this model. It is navigation, tabs, a
  carousel and a clock.

=== FILE: brickbreaker.dfy ===
/**
  The discrete state of the brick-breaker game: score, level, lives, the
  running flag, the status message, the integer grid size of the level
  and its bricks. Ball, paddle and particle physics are floating-point
  numerics and are not modelled; each animation frame receives, as an
  oracle, the set of brick indices the ball overlaps and whether the ball
  fell below the board.
 */
module BrickBreaker {
  import opened Wrappers

  const PaletteSize: nat := 7
  const MaxLives: int := 5
  const StartLives: int := 3
  const BrickPoints: int := 50

  /** `Math.max(lo, Math.min(hi, v))`. */
  function Clamp(v: int, lo: int, hi: int): (r: int)
    ensures lo <= hi ==> lo <= r <= hi
    ensures lo <= v <= hi ==> r == v
    ensures v < lo ==> r == lo
    ensures lo <= hi < v ==> r == hi
  {
    var m := if hi < v then hi else v;
    if lo < m then m else lo
  }

  // ---------------------------------------------------------------------
  // Layout and bricks.

  /** The integer part of a level's layout: how many rows and columns of bricks. */
  datatype Layout = Layout(rows: nat, columns: nat)

  /** Rows grow by one per level from 4 up to 8; columns by one every second level from 8 up to 11. */
  function ComputeLayout(level: int): (l: Layout)
    ensures 3 <= l.rows <= 8 && 8 <= l.columns <= 11
    ensures 0 <= level <= 5 ==> l.rows == 3 + level
    ensures 0 <= level <= 7 ==> l.columns == 8 + level / 2
  {
    Layout(Clamp(3 + level, 3, 8), Clamp(8 + level / 2, 8, 11))
  }

  /** A higher level never has fewer rows or columns. */
  lemma LayoutMonotone(a: int, b: int)
    requires a <= b
    ensures ComputeLayout(a).rows <= ComputeLayout(b).rows
    ensures ComputeLayout(a).columns <= ComputeLayout(b).columns
  {
    assert a / 2 <= b / 2;
  }

  /** From level 6 on, every level has the full 8 by 11 grid. */
  lemma LayoutSaturates(level: int)
    requires level >= 6
    ensures ComputeLayout(level) == Layout(8, 11)
  {
    assert level / 2 >= 3;
  }

  /** A brick's grid cell, palette index and whether it still stands. */
  datatype Brick = Brick(row: nat, col: nat, palette: nat, alive: bool)

  function RowOf(row: nat, columns: nat): (bs: seq<Brick>)
    ensures |bs| == columns
    ensures forall c :: 0 <= c < columns ==> bs[c] == Brick(row, c, (row + c) % PaletteSize, true)
  {
    seq(columns, c requires 0 <= c < columns => Brick(row, c, (row + c) % PaletteSize, true))
  }

  /**
    The bricks of a `rows` by `columns` level in row-major order: brick k
    sits in row k / columns, column k % columns; every brick stands and
    takes palette colour (row + col) mod 7.
   */
  function Grid(rows: nat, columns: nat): (bs: seq<Brick>)
    ensures |bs| == rows * columns
    ensures forall k :: 0 <= k < |bs| ==>
              bs[k].row < rows && bs[k].col < columns && bs[k].row * columns + bs[k].col == k
    ensures forall k :: 0 <= k < |bs| ==>
              bs[k].alive && bs[k].palette == (bs[k].row + bs[k].col) % PaletteSize
    decreases rows
  {
    if rows == 0 then []
    else
      var prev := Grid(rows - 1, columns);
      assert rows * columns == (rows - 1) * columns + columns;
      prev + RowOf(rows - 1, columns)
  }

  /** No grid cell holds two bricks. */
  lemma GridUnique(rows: nat, columns: nat, i: nat, j: nat)
    requires i < j < rows * columns
    ensures Grid(rows, columns)[i].row != Grid(rows, columns)[j].row
         || Grid(rows, columns)[i].col != Grid(rows, columns)[j].col
  {
  }

  /** Every cell of the grid holds a brick. */
  lemma {:induction false} GridCovers(rows: nat, columns: nat, row: nat, col: nat)
    requires row < rows && col < columns
    ensures exists k :: 0 <= k < |Grid(rows, columns)| &&
              Grid(rows, columns)[k].row == row && Grid(rows, columns)[k].col == col
    decreases rows
  {
    var prev := Grid(rows - 1, columns);
    var bs := Grid(rows, columns);
    assert bs == prev + RowOf(rows - 1, columns);
    if row == rows - 1 {
      assert bs[|prev| + col] == RowOf(rows - 1, columns)[col];
    } else {
      GridCovers(rows - 1, columns, row, col);
      var k :| 0 <= k < |prev| && prev[k].row == row && prev[k].col == col;
      assert bs[k] == prev[k];
    }
  }

  // ---------------------------------------------------------------------
  // Game state.

  /** The status line: empty, the level-up note, the try-again note, or the game-over banner. */
  datatype Message = Silent | LevelUp | TryAgain | GameOver

  datatype Arcade = Arcade(
    score: int,
    level: int,
    lives: int,
    running: bool,
    message: Message,
    layout: Layout,
    bricks: seq<Brick>)

  /** A fresh grid for the current level; nothing else changes. */
  function BuildLevel(s: Arcade): (t: Arcade)
    ensures t.layout == ComputeLayout(s.level)
    ensures t.bricks == Grid(t.layout.rows, t.layout.columns)
    ensures t.(layout := s.layout, bricks := s.bricks) == s
  {
    var l := ComputeLayout(s.level);
    s.(layout := l, bricks := Grid(l.rows, l.columns))
  }

  /**
    Restart: a full reset starts over at score 0, level 1 with 3 lives;
    either kind resumes play with an empty message and a fresh grid.
   */
  function Reset(s: Arcade, full: bool): (t: Arcade)
    ensures full ==> t.score == 0 && t.level == 1 && t.lives == StartLives
    ensures !full ==> t.score == s.score && t.level == s.level && t.lives == s.lives
    ensures t.running && t.message == Silent
    ensures t.layout == ComputeLayout(t.level) && t.bricks == Grid(t.layout.rows, t.layout.columns)
  {
    var s1 := if full then s.(score := 0, level := 1, lives := StartLives) else s;
    BuildLevel(s1.(running := true, message := Silent))
  }

  /**
    The ball fell out: one life less; at zero (or below) lives are pinned
    to 0 and play stops with the game-over banner, otherwise the running
    flag is kept and the try-again note shows.
   */
  function LoseLife(s: Arcade): (t: Arcade)
    ensures s.lives - 1 > 0 ==> t.lives == s.lives - 1 && t.running == s.running && t.message == TryAgain
    ensures s.lives - 1 <= 0 ==> t.lives == 0 && !t.running && t.message == GameOver
    ensures t.score == s.score && t.level == s.level && t.layout == s.layout && t.bricks == s.bricks
  {
    var lives := s.lives - 1;
    if lives <= 0 then s.(lives := 0, running := false, message := GameOver)
    else s.(lives := lives, message := TryAgain)
  }

  // ---------------------------------------------------------------------
  // Brick collisions.

  /** The first standing brick, from index `i` on, that the ball overlaps. */
  function FirstHit(bs: seq<Brick>, touching: set<nat>, i: nat): (r: Option<nat>)
    requires i <= |bs|
    ensures r.Some? ==>
              && i <= r.value < |bs| && bs[r.value].alive && r.value in touching
              && forall j :: i <= j < r.value ==> !(bs[j].alive && j in touching)
    ensures r.None? ==> forall j :: i <= j < |bs| ==> !(bs[j].alive && j in touching)
    decreases |bs| - i
  {
    if i == |bs| then None
    else if bs[i].alive && i in touching then Some(i)
    else FirstHit(bs, touching, i + 1)
  }

  predicate AnyAlive(bs: seq<Brick>) {
    exists k :: 0 <= k < |bs| && bs[k].alive
  }

  /** How many bricks have been knocked out. */
  function Knocked(bs: seq<Brick>): (n: nat)
    ensures n <= |bs|
    decreases |bs|
  {
    if |bs| == 0 then 0 else Knocked(bs[..|bs| - 1]) + (if bs[|bs| - 1].alive then 0 else 1)
  }

  /** Knocking out a standing brick adds exactly one to the count. */
  lemma {:induction false} KnockOne(bs: seq<Brick>, k: nat)
    requires k < |bs| && bs[k].alive
    ensures Knocked(bs[k := bs[k].(alive := false)]) == Knocked(bs) + 1
    decreases |bs|
  {
    var n := |bs| - 1;
    var cs := bs[k := bs[k].(alive := false)];
    if k < n {
      assert cs[..n] == bs[..n][k := bs[k].(alive := false)];
      KnockOne(bs[..n], k);
    } else {
      assert cs[..n] == bs[..n];
    }
  }

  /** A fresh grid has no brick knocked out. */
  lemma {:induction false} NoneKnocked(bs: seq<Brick>)
    requires forall k :: 0 <= k < |bs| ==> bs[k].alive
    ensures Knocked(bs) == 0
    decreases |bs|
  {
    if |bs| > 0 {
      NoneKnocked(bs[..|bs| - 1]);
    }
  }

  /**
    The scan over the bricks: the first standing brick the ball overlaps
    is knocked out and scores 50; the scan stops there, so at most one
    brick falls per frame, and no knocked-out brick stands up again.
   */
  function HitBrick(s: Arcade, touching: set<nat>): (t: Arcade)
    ensures t.level == s.level && t.lives == s.lives && t.running == s.running
    ensures t.message == s.message && t.layout == s.layout
    ensures |t.bricks| == |s.bricks|
    ensures forall k :: 0 <= k < |s.bricks| ==> t.bricks[k].(alive := true) == s.bricks[k].(alive := true)
    ensures forall k :: 0 <= k < |s.bricks| && t.bricks[k].alive ==> s.bricks[k].alive
    ensures forall k :: 0 <= k < |s.bricks| && s.bricks[k].alive && !t.bricks[k].alive ==>
              k in touching && forall j :: 0 <= j < k ==> !(s.bricks[j].alive && j in touching)
    ensures t.score == s.score + BrickPoints * (Knocked(t.bricks) - Knocked(s.bricks))
    ensures Knocked(t.bricks) <= Knocked(s.bricks) + 1
    ensures Knocked(t.bricks) == Knocked(s.bricks) + 1 <==>
              exists k :: 0 <= k < |s.bricks| && s.bricks[k].alive && k in touching
  {
    match FirstHit(s.bricks, touching, 0)
    case None => s
    case Some(k) =>
      KnockOne(s.bricks, k);
      s.(bricks := s.bricks[k := s.bricks[k].(alive := false)], score := s.score + BrickPoints)
  }

  /**
    One collision pass: the scan, then, when no brick stands, the level
    goes up by one, a life is won back up to the cap of 5, the level-up
    note shows and the next level's grid is built.
   */
  function Collide(s: Arcade, touching: set<nat>): (t: Arcade)
    ensures var h := HitBrick(s, touching);
            AnyAlive(h.bricks) ==> t == h
    ensures var h := HitBrick(s, touching);
            !AnyAlive(h.bricks) ==>
              && t.level == s.level + 1
              && t.lives == (if s.lives + 1 < MaxLives then s.lives + 1 else MaxLives)
              && t.message == LevelUp
              && t.score == h.score && t.running == s.running
              && t.layout == ComputeLayout(s.level + 1)
              && t.bricks == Grid(t.layout.rows, t.layout.columns)
  {
    var h := HitBrick(s, touching);
    if AnyAlive(h.bricks) then h
    else
      var lives := if h.lives + 1 < MaxLives then h.lives + 1 else MaxLives;
      BuildLevel(h.(level := h.level + 1, lives := lives, message := LevelUp))
  }

  /**
    One animation frame. Nothing happens while play is stopped or when the
    frame comes more than 40 ms after the last (`lagging`); otherwise the
    collision pass runs, and then a life is lost if the ball fell out. A
    level-up puts the ball back on the paddle before the fall test, so in
    that frame the ball cannot have fallen and `fell` is not consulted.
   */
  function Frame(s: Arcade, lagging: bool, touching: set<nat>, fell: bool): (t: Arcade)
    ensures !s.running || lagging ==> t == s
    ensures s.running && !lagging && !AnyAlive(HitBrick(s, touching).bricks) ==>
              && t == Collide(s, touching) && t.level == s.level + 1 && t.message == LevelUp
              && t.lives == (if s.lives + 1 < MaxLives then s.lives + 1 else MaxLives)
    ensures s.running && !lagging && AnyAlive(HitBrick(s, touching).bricks) ==>
              && t.level == s.level && t.layout == s.layout
              && (fell ==> t == LoseLife(HitBrick(s, touching)))
              && (fell ==> t.lives == (if s.lives - 1 > 0 then s.lives - 1 else 0))
              && (fell ==> t.score == HitBrick(s, touching).score && t.bricks == HitBrick(s, touching).bricks)
              && (fell ==> (t.running <==> s.lives > 1) && t.message == (if s.lives > 1 then TryAgain else GameOver))
              && (!fell ==> t == HitBrick(s, touching))
  {
    if !s.running || lagging then s
    else
      var c := Collide(s, touching);
      if fell && AnyAlive(HitBrick(s, touching).bricks) then LoseLife(c) else c
  }

  /**
    What can happen: a frame (with its oracle), the space key, the restart
    button, or a message timer firing. The level-up and try-again notes
    schedule a timer that blanks the message; the model lets it fire at any
    moment, which covers every timing the browser can produce.
   */
  datatype Event =
    | Tick(lagging: bool, touching: set<nat>, fell: bool)
    | Space
    | Restart
    | Timeout

  /**
    The space key restarts only a stopped game; the restart button always
    does; a message timer blanks the status line and nothing else.
   */
  function Step(s: Arcade, e: Event): (t: Arcade)
    ensures e.Space? && s.running ==> t == s
    ensures (e.Space? && !s.running) || e.Restart? ==>
              t.score == 0 && t.level == 1 && t.lives == StartLives && t.running && t.message == Silent
    ensures e.Timeout? ==> t.message == Silent && t.(message := s.message) == s
  {
    match e
    case Tick(lagging, touching, fell) => Frame(s, lagging, touching, fell)
    case Space => if !s.running then Reset(s, true) else s
    case Restart => Reset(s, true)
    case Timeout => s.(message := Silent)
  }

  function Run(s: Arcade, es: seq<Event>): Arcade
    decreases |es|
  {
    if |es| == 0 then s else Run(Step(s, es[0]), es[1..])
  }

  /** The game as the constructor leaves it: a full reset of the initial fields. */
  function Start(): (t: Arcade)
    ensures t.score == 0 && t.level == 1 && t.lives == StartLives && t.running && t.message == Silent
    ensures t.layout == Layout(4, 8) && |t.bricks| == 32
    ensures forall k :: 0 <= k < |t.bricks| ==> t.bricks[k].alive
  {
    Reset(Arcade(0, 1, StartLives, true, Silent, ComputeLayout(1), []), true)
  }

  // ---------------------------------------------------------------------
  // The invariant.

  /** The bricks are the grid of the layout, some knocked out. */
  predicate OnGrid(s: Arcade) {
    var g := Grid(s.layout.rows, s.layout.columns);
    && |s.bricks| == |g|
    && forall k :: 0 <= k < |g| ==> s.bricks[k].(alive := true) == g[k]
  }

  /**
    Level at least 1, lives within 0..5, score a non-negative multiple of
    50, the layout and bricks of the current level with at least one brick
    standing, and play running exactly while lives remain.
   */
  predicate Inv(s: Arcade) {
    && s.level >= 1
    && 0 <= s.lives <= MaxLives
    && s.score >= 0 && s.score % BrickPoints == 0
    && s.layout == ComputeLayout(s.level)
    && OnGrid(s)
    && AnyAlive(s.bricks)
    && (s.running <==> s.lives > 0)
  }

  lemma FreshGridInv(s: Arcade)
    requires s.layout == ComputeLayout(s.level) && s.bricks == Grid(s.layout.rows, s.layout.columns)
    ensures OnGrid(s) && AnyAlive(s.bricks)
  {
    var g := Grid(s.layout.rows, s.layout.columns);
    assert g[0].alive;
    assert forall k :: 0 <= k < |g| ==> g[k].(alive := true) == g[k];
  }

  lemma ResetInv(s: Arcade)
    ensures Inv(Reset(s, true))
  {
    FreshGridInv(Reset(s, true));
  }

  lemma StartInv()
    ensures Inv(Start())
  {
    ResetInv(Arcade(0, 1, StartLives, true, Silent, ComputeLayout(1), []));
  }

  lemma HitBrickInv(s: Arcade, touching: set<nat>)
    requires s.score >= 0 && s.score % BrickPoints == 0 && OnGrid(s)
    ensures var h := HitBrick(s, touching);
            h.score >= 0 && h.score % BrickPoints == 0 && OnGrid(h)
  {
    var h := HitBrick(s, touching);
    ScoreStep(s.score, Knocked(h.bricks) - Knocked(s.bricks));
    HitBrickOnGrid(s, h);
  }

  lemma ScoreStep(score: int, d: int)
    requires score >= 0 && score % BrickPoints == 0 && 0 <= d <= 1
    ensures score + BrickPoints * d >= 0 && (score + BrickPoints * d) % BrickPoints == 0
  {
  }

  lemma HitBrickOnGrid(s: Arcade, h: Arcade)
    requires OnGrid(s) && h.layout == s.layout && |h.bricks| == |s.bricks|
    requires forall k :: 0 <= k < |s.bricks| ==> h.bricks[k].(alive := true) == s.bricks[k].(alive := true)
    ensures OnGrid(h)
  {
  }

  lemma CollideInv(s: Arcade, touching: set<nat>)
    requires Inv(s) && s.running
    ensures Inv(Collide(s, touching)) && Collide(s, touching).running
  {
    var h := HitBrick(s, touching);
    HitBrickInv(s, touching);
    if AnyAlive(h.bricks) {
      KeepInv(s, h);
    } else {
      LevelUpInv(s, Collide(s, touching));
    }
  }

  /** A scan that leaves a brick standing keeps the invariant. */
  lemma KeepInv(s: Arcade, h: Arcade)
    requires Inv(s) && s.running
    requires h.level == s.level && h.lives == s.lives && h.running == s.running && h.layout == s.layout
    requires h.score >= 0 && h.score % BrickPoints == 0 && OnGrid(h) && AnyAlive(h.bricks)
    ensures Inv(h) && h.running
  {
  }

  /** Levelling up keeps the invariant. */
  lemma LevelUpInv(s: Arcade, c: Arcade)
    requires Inv(s) && s.running
    requires c.level == s.level + 1 && c.lives == (if s.lives + 1 < MaxLives then s.lives + 1 else MaxLives)
    requires c.running == s.running && c.score >= 0 && c.score % BrickPoints == 0
    requires c.layout == ComputeLayout(c.level) && c.bricks == Grid(c.layout.rows, c.layout.columns)
    ensures Inv(c) && c.running
  {
    FreshGridInv(c);
  }

  lemma LoseLifeInv(s: Arcade)
    requires Inv(s)
    ensures Inv(LoseLife(s))
  {
  }

  /** Every event keeps the invariant. */
  lemma StepInv(s: Arcade, e: Event)
    requires Inv(s)
    ensures Inv(Step(s, e))
  {
    match e
    case Tick(lagging, touching, fell) =>
      if s.running && !lagging {
        CollideInv(s, touching);
        if fell && AnyAlive(HitBrick(s, touching).bricks) {
          LoseLifeInv(Collide(s, touching));
        }
      }
    case Space => ResetInv(s);
    case Restart => ResetInv(s);
    case Timeout =>
  }

  lemma {:induction false} RunInv(s: Arcade, es: seq<Event>)
    requires Inv(s)
    ensures Inv(Run(s, es))
    decreases |es|
  {
    if |es| > 0 {
      StepInv(s, es[0]);
      RunInv(Step(s, es[0]), es[1..]);
    }
  }

  /** Whatever happens, lives stay within 0..5, the level at least 1, and the score a non-negative multiple of 50. */
  lemma Reachable(es: seq<Event>)
    ensures var s := Run(Start(), es);
            && 0 <= s.lives <= MaxLives && s.level >= 1
            && s.score >= 0 && s.score % BrickPoints == 0
  {
    StartInv();
    RunInv(Start(), es);
  }
}

=== FILE: cards.dfy ===
/**
  Card records, the 52-card deck and its Fisher-Yates shuffle.

  A card keeps its identity (`id`, `suit`, `value`, `color`) for the whole
  game; only `faceUp` and `location` change as it travels between piles.
  The rank label, the aria label and the DOM element of a card are
  presentation and are not modelled.
 */
module Cards {
  import opened Wrappers

  datatype Suit = Hearts | Diamonds | Clubs | Spades

  datatype Color = Red | Black

  /** A pile of the board. Stock and waste carry the implicit index 0 of the source. */
  datatype PileRef = Stock | Waste | Foundation(index: nat) | Tableau(index: nat)

  const FoundationCount: nat := 4
  const TableauCount: nat := 7
  const RankCount: nat := 13
  const DeckSize: nat := 52

  /** The suits in the order the deck is built. */
  const Suits: seq<Suit> := [Hearts, Diamonds, Clubs, Spades]

  /** The fixed suit-to-colour table. */
  function ColorOf(s: Suit): Color {
    match s
    case Hearts => Red
    case Diamonds => Red
    case Clubs => Black
    case Spades => Black
  }

  /** `id` n stands for the string `card-n`; `value` runs from 1 (Ace) to 13 (King). */
  datatype Card = Card(id: nat, suit: Suit, value: nat, color: Color, faceUp: bool, location: Option<PileRef>)

  /** The card as printed: everything a move can never change. */
  function Strip(c: Card): Card {
    c.(faceUp := false, location := None)
  }

  /** The card `c` as it lies in pile `r`, turned face-up or face-down. */
  function Placed(c: Card, up: bool, r: PileRef): Card {
    c.(faceUp := up, location := Some(r))
  }

  function Strips(s: seq<Card>): (r: seq<Card>)
    ensures |r| == |s|
    ensures forall i :: 0 <= i < |s| ==> r[i] == Strip(s[i])
  {
    seq(|s|, i requires 0 <= i < |s| => Strip(s[i]))
  }

  /** The card pushed on iteration `k` of the deck builder: suit `k / 13`, rank index `k % 13`. */
  function NewCard(k: nat): Card
    requires k < DeckSize
  {
    var suit := Suits[k / RankCount];
    Card(k, suit, k % RankCount + 1, ColorOf(suit), false, None)
  }

  /** The position of a suit in the build order. */
  function SuitIndex(s: Suit): (i: nat)
    ensures i < |Suits| && Suits[i] == s
  {
    match s
    case Hearts => 0
    case Diamonds => 1
    case Clubs => 2
    case Spades => 3
  }

  /**
    The fresh deck: 52 face-down cards without a location, numbered in
    build order, red exactly for hearts and diamonds, with no (suit, value)
    pair repeated.
   */
  function CreateDeck(): (deck: seq<Card>)
    ensures |deck| == DeckSize
    ensures forall k :: 0 <= k < |deck| ==> deck[k].id == k
    ensures forall k :: 0 <= k < |deck| ==> !deck[k].faceUp && deck[k].location == None
    ensures forall k :: 0 <= k < |deck| ==> 1 <= deck[k].value <= RankCount
    ensures forall k :: 0 <= k < |deck| ==>
              (deck[k].color == Red <==> deck[k].suit == Hearts || deck[k].suit == Diamonds)
    ensures forall i, j :: 0 <= i < j < |deck| ==>
              deck[i].suit != deck[j].suit || deck[i].value != deck[j].value
  {
    seq(DeckSize, k requires 0 <= k < DeckSize => NewCard(k))
  }

  /** Every (suit, value) pair of a standard deck occurs in the fresh deck. */
  lemma DeckHasEveryCard(s: Suit, v: nat)
    requires 1 <= v <= RankCount
    ensures exists k :: 0 <= k < DeckSize && CreateDeck()[k].suit == s && CreateDeck()[k].value == v
  {
    var k := SuitIndex(s) * RankCount + (v - 1);
    assert k / RankCount == SuitIndex(s) && k % RankCount == v - 1;
    assert CreateDeck()[k].suit == s && CreateDeck()[k].value == v;
  }

  /** Every card of the fresh deck is already in printed form. */
  lemma DeckIsPrinted(c: Card)
    requires c in CreateDeck()
    ensures Strip(c) == c
  {
  }

  /**
    The choices of the Fisher-Yates loop for `n` items: at step `i`
    (counting down from n-1 to 1) the source draws floor(random * (i+1)),
    an index in [0, i]. `picks[i]` is that draw; `picks[0]` is unused.
   */
  predicate ValidPicks(picks: seq<nat>, n: nat) {
    |picks| == n && forall i :: 0 <= i < n ==> picks[i] <= i
  }

  function Swap<T>(a: seq<T>, i: nat, j: nat): (r: seq<T>)
    requires i < |a| && j < |a|
    ensures |r| == |a| && r[i] == a[j] && r[j] == a[i]
    ensures forall k :: 0 <= k < |a| && k != i && k != j ==> r[k] == a[k]
    ensures multiset(r) == multiset(a)
  {
    a[i := a[j]][j := a[i]]
  }

  /** Steps i, i-1, ..., 1 of the Fisher-Yates loop. */
  function ShuffleDown<T>(a: seq<T>, picks: seq<nat>, i: nat): (r: seq<T>)
    requires ValidPicks(picks, |a|) && i < |a|
    ensures |r| == |a|
    ensures multiset(r) == multiset(a)
    decreases i
  {
    if i == 0 then a else ShuffleDown(Swap(a, i, picks[i]), picks, i - 1)
  }

  /** The shuffle returns a permutation of its input, whatever the random draws. */
  function Shuffle<T>(a: seq<T>, picks: seq<nat>): (r: seq<T>)
    requires ValidPicks(picks, |a|)
    ensures |r| == |a|
    ensures multiset(r) == multiset(a)
  {
    if |a| == 0 then a else ShuffleDown(a, picks, |a| - 1)
  }

  /** A shuffled fresh deck still consists of printed cards only. */
  lemma ShuffledDeckIsPrinted(picks: seq<nat>)
    requires ValidPicks(picks, DeckSize)
    ensures Strips(Shuffle(CreateDeck(), picks)) == Shuffle(CreateDeck(), picks)
  {
    var s := Shuffle(CreateDeck(), picks);
    forall i | 0 <= i < |s|
      ensures Strips(s)[i] == s[i]
    {
      assert s[i] in multiset(s);
      assert s[i] in multiset(CreateDeck());
      DeckIsPrinted(s[i]);
    }
  }
}

=== FILE: conservation.dfy ===
/**
  Card conservation: no operation of the engine creates, destroys or
  duplicates a card. `Count(g, x)` is how many cards on the board are, as
  printed, the card `x`; every operation leaves every count unchanged, and
  a new game holds each card of the fresh deck exactly once.
 */
module Conservation {
  import opened Wrappers
  import opened Cards
  import opened Klondike

  /** How many cards of `p` are, as printed, the card `x`. */
  function Occ(p: seq<Card>, x: Card): nat
    decreases |p|
  {
    if |p| == 0 then 0 else Occ(p[..|p| - 1], x) + (if Strip(p[|p| - 1]) == x then 1 else 0)
  }

  function OccAll(ps: seq<seq<Card>>, x: Card): nat
    decreases |ps|
  {
    if |ps| == 0 then 0 else OccAll(ps[..|ps| - 1], x) + Occ(ps[|ps| - 1], x)
  }

  /** How many cards on the board are, as printed, the card `x`. */
  function Count(g: Game, x: Card): nat {
    Occ(g.stock, x) + Occ(g.waste, x) + OccAll(g.foundations, x) + OccAll(g.tableau, x)
  }

  /** How many cards lie on the board. */
  function Size(g: Game): nat {
    |g.stock| + |g.waste| + TotalLength(g.foundations) + TotalLength(g.tableau)
  }

  /** `g'` holds the same cards as `g`, card for card. */
  ghost predicate Conserves(g: Game, g': Game) {
    && Size(g') == Size(g)
    && forall x :: Count(g', x) == Count(g, x)
  }

  /** The board holds every card of the fresh deck exactly once, and nothing else. */
  ghost predicate HoldsDeck(g: Game) {
    && Size(g) == DeckSize
    && forall x :: Count(g, x) == (if x in CreateDeck() then 1 else 0)
  }

  // ---------------------------------------------------------------------
  // Counting lemmas.

  lemma {:induction false} OccAppend(a: seq<Card>, b: seq<Card>, x: Card)
    ensures Occ(a + b, x) == Occ(a, x) + Occ(b, x)
    decreases |b|
  {
    if |b| == 0 {
      assert a + b == a;
    } else {
      var n := |b| - 1;
      assert (a + b)[..|a + b| - 1] == a + b[..n];
      OccAppend(a, b[..n], x);
    }
  }

  lemma OccSplit(p: seq<Card>, k: nat, x: Card)
    requires k <= |p|
    ensures Occ(p, x) == Occ(p[..k], x) + Occ(p[k..], x)
  {
    assert p == p[..k] + p[k..];
    OccAppend(p[..k], p[k..], x);
  }

  /** Counts see only the printed cards. */
  lemma {:induction false} OccStrips(a: seq<Card>, b: seq<Card>, x: Card)
    requires Strips(a) == Strips(b)
    ensures Occ(a, x) == Occ(b, x)
    decreases |a|
  {
    if |a| > 0 {
      var n := |a| - 1;
      assert Strips(a[..n]) == Strips(a)[..n] == Strips(b)[..n] == Strips(b[..n]);
      assert Strip(a[n]) == Strips(a)[n] == Strips(b)[n] == Strip(b[n]);
      OccStrips(a[..n], b[..n], x);
    }
  }

  lemma {:induction false} OccAllUpdate(ps: seq<seq<Card>>, i: nat, p: seq<Card>, x: Card)
    requires i < |ps|
    ensures OccAll(ps[i := p], x) + Occ(ps[i], x) == OccAll(ps, x) + Occ(p, x)
    decreases |ps|
  {
    var n := |ps| - 1;
    var qs := ps[i := p];
    if i < n {
      assert qs[..n] == ps[..n][i := p];
      OccAllUpdate(ps[..n], i, p, x);
    } else {
      assert qs[..n] == ps[..n];
    }
  }

  lemma {:induction false} TotalLengthUpdate(ps: seq<seq<Card>>, i: nat, p: seq<Card>)
    requires i < |ps|
    ensures TotalLength(ps[i := p]) + |ps[i]| == TotalLength(ps) + |p|
    decreases |ps|
  {
    var n := |ps| - 1;
    var qs := ps[i := p];
    if i < n {
      assert qs[..n] == ps[..n][i := p];
      TotalLengthUpdate(ps[..n], i, p);
    } else {
      assert qs[..n] == ps[..n];
    }
  }

  /** A row of empty piles holds no card. */
  lemma {:induction false} EmptyRow(ps: seq<seq<Card>>, x: Card)
    requires forall i :: 0 <= i < |ps| ==> ps[i] == []
    ensures OccAll(ps, x) == 0
    decreases |ps|
  {
    if |ps| > 0 {
      EmptyRow(ps[..|ps| - 1], x);
    }
  }

  lemma {:induction false} EmptyRowLength(ps: seq<seq<Card>>)
    requires forall i :: 0 <= i < |ps| ==> ps[i] == []
    ensures TotalLength(ps) == 0
    decreases |ps|
  {
    if |ps| > 0 {
      EmptyRowLength(ps[..|ps| - 1]);
    }
  }

  /** Replacing one pile changes the board's counts by exactly that pile. */
  lemma SetPileCount(g: Game, r: PileRef, p: seq<Card>, x: Card)
    requires ValidRef(r)
    ensures Count(SetPile(g, r, p), x) + Occ(Pile(g, r), x) == Count(g, x) + Occ(p, x)
  {
    match r
    case Stock =>
    case Waste =>
    case Foundation(i) => OccAllUpdate(g.foundations, i, p, x);
    case Tableau(i) => OccAllUpdate(g.tableau, i, p, x);
  }

  lemma SetPileSize(g: Game, r: PileRef, p: seq<Card>)
    requires ValidRef(r)
    ensures Size(SetPile(g, r, p)) + |Pile(g, r)| == Size(g) + |p|
  {
    match r
    case Stock =>
    case Waste =>
    case Foundation(i) => TotalLengthUpdate(g.foundations, i, p);
    case Tableau(i) => TotalLengthUpdate(g.tableau, i, p);
  }

  /** Size and counts are blind to the completion mark. */
  lemma MarkConserves(g: Game, b: bool)
    ensures Conserves(g, g.(complete := b))
  {
  }

  // ---------------------------------------------------------------------
  // Each operation conserves the cards.

  lemma PushCount(g: Game, dst: PileRef, cards: seq<Card>, x: Card)
    requires ValidRef(dst)
    ensures Count(Push(g, dst, cards), x) == Count(g, x) + Occ(cards, x)
  {
    SetPileCount(g, dst, Pile(g, dst) + Relocate(cards, dst), x);
    OccAppend(Pile(g, dst), Relocate(cards, dst), x);
    OccStrips(Relocate(cards, dst), cards, x);
  }

  lemma PushSize(g: Game, dst: PileRef, cards: seq<Card>)
    requires ValidRef(dst)
    ensures Size(Push(g, dst, cards)) == Size(g) + |cards|
  {
    SetPileSize(g, dst, Pile(g, dst) + Relocate(cards, dst));
  }

  lemma ExposeTopConserves(g: Game, src: PileRef)
    requires ValidRef(src)
    ensures Conserves(g, ExposeTop(g, src))
  {
    if src.Tableau? {
      SetPileSize(g, src, FlipTop(Pile(g, src)));
      forall x
        ensures Count(ExposeTop(g, src), x) == Count(g, x)
      {
        SetPileCount(g, src, FlipTop(Pile(g, src)), x);
        OccStrips(FlipTop(Pile(g, src)), Pile(g, src), x);
      }
    }
  }

  /** A stack move only moves cards: every count and the board size are unchanged. */
  lemma MoveStackConserves(g: Game, src: PileRef, start: nat, dst: PileRef)
    requires ValidRef(src) && ValidRef(dst)
    ensures Conserves(g, MoveStack(g, src, start, dst))
  {
    var p := Pile(g, src);
    MoveStepsConserve(g, src, Cut(p, start), dst);
  }

  /** The steps of a stack move, cutting at `k`, keep every count and the board size. */
  lemma MoveStepsConserve(g: Game, src: PileRef, k: nat, dst: PileRef)
    requires ValidRef(src) && ValidRef(dst) && k <= |Pile(g, src)|
    ensures var p := Pile(g, src);
            Conserves(g, CheckWin(ExposeTop(Push(SetPile(g, src, p[..k]), dst, p[k..]), src), dst))
  {
    var p := Pile(g, src);
    var g1 := SetPile(g, src, p[..k]);
    var g2 := Push(g1, dst, p[k..]);
    var g3 := ExposeTop(g2, src);
    ExposeTopConserves(g2, src);
    MarkConserves(g3, CheckWin(g3, dst).complete);
    SetPileSize(g, src, p[..k]);
    PushSize(g1, dst, p[k..]);
    forall x
      ensures Count(g2, x) == Count(g, x)
    {
      MoveStepsCount(g, src, k, dst, x);
    }
  }

  lemma MoveStepsCount(g: Game, src: PileRef, k: nat, dst: PileRef, x: Card)
    requires ValidRef(src) && ValidRef(dst) && k <= |Pile(g, src)|
    ensures var p := Pile(g, src);
            Count(Push(SetPile(g, src, p[..k]), dst, p[k..]), x) == Count(g, x)
  {
    var p := Pile(g, src);
    SetPileCount(g, src, p[..k], x);
    OccSplit(p, k, x);
    PushCount(SetPile(g, src, p[..k]), dst, p[k..], x);
  }

  lemma {:induction false} RecycleConserves(w: seq<Card>, x: Card)
    ensures Occ(Recycle(w), x) == Occ(w, x)
    decreases |w|
  {
    if |w| > 0 {
      var n := |w| - 1;
      var top := Placed(w[n], false, Stock);
      assert Recycle(w) == [top] + Recycle(w[..n]);
      OccAppend([top], Recycle(w[..n]), x);
      assert [top][..0] == [];
      RecycleConserves(w[..n], x);
    }
  }

  /** A stock click only moves cards between stock and waste. */
  lemma DrawConserves(g: Game)
    ensures Conserves(g, Draw(g))
  {
    if |g.stock| > 0 {
      var n := |g.stock| - 1;
      forall x
        ensures Count(Draw(g), x) == Count(g, x)
      {
        TurnOneCount(g.stock, g.waste, Placed(g.stock[n], true, Waste), x);
      }
    } else if |g.waste| > 0 {
      forall x
        ensures Count(Draw(g), x) == Count(g, x)
      {
        RecycleConserves(g.waste, x);
      }
    }
  }

  /** Moving the top of `s` onto `w`, in any face state and location, keeps the counts. */
  lemma TurnOneCount(s: seq<Card>, w: seq<Card>, c: Card, x: Card)
    requires |s| > 0 && Strip(c) == Strip(s[|s| - 1])
    ensures Occ(s[..|s| - 1], x) + Occ(w + [c], x) == Occ(s, x) + Occ(w, x)
  {
    OccAppend(w, [c], x);
    assert [c][..0] == [];
  }

  lemma PopToConserves(g: Game, col: nat, up: bool)
    requires col < TableauCount
    ensures Conserves(g, PopTo(g, col, up))
  {
    if |g.stock| > 0 {
      var n := |g.stock| - 1;
      var card := Placed(g.stock[n], up, Tableau(col));
      TotalLengthUpdate(g.tableau, col, g.tableau[col] + [card]);
      forall x
        ensures Count(PopTo(g, col, up), x) == Count(g, x)
      {
        OccSplit(g.stock, n, x);
        assert g.stock[n..] == [g.stock[n]];
        OccAppend(g.tableau[col], [card], x);
        assert [g.stock[n]][..0] == [] == [card][..0];
        OccAllUpdate(g.tableau, col, g.tableau[col] + [card], x);
      }
    }
  }

  lemma {:induction false} DealColumnConserves(g: Game, col: nat, row: nat)
    requires col < TableauCount && row <= col + 1
    ensures Conserves(g, DealColumn(g, col, row))
    decreases col + 1 - row
  {
    if row <= col {
      PopToConserves(g, col, row == col);
      DealColumnConserves(PopTo(g, col, row == col), col, row + 1);
    }
  }

  lemma {:induction false} DealFromConserves(g: Game, col: nat)
    requires col <= TableauCount
    ensures Conserves(g, DealFrom(g, col))
    decreases TableauCount - col
  {
    if col < TableauCount {
      DealColumnConserves(g, col, 0);
      DealFromConserves(DealColumn(g, col, 0), col + 1);
    }
  }

  lemma OpeningSize(deck: seq<Card>)
    ensures Size(Opening(deck)) == |deck|
  {
    EmptyRowLength(Opening(deck).foundations);
    EmptyRowLength(Opening(deck).tableau);
  }

  lemma OpeningCount(deck: seq<Card>, x: Card)
    ensures Count(Opening(deck), x) == Occ(deck, x)
  {
    OccStrips(Stocked(deck), deck, x);
    EmptyRow(Opening(deck).foundations, x);
    EmptyRow(Opening(deck).tableau, x);
  }

  lemma DealSize(deck: seq<Card>)
    ensures Size(Deal(deck)) == |deck|
  {
    DealFromConserves(Opening(deck), 0);
    OpeningSize(deck);
  }

  /** The deal lays out exactly the cards of the deck. */
  lemma DealCount(deck: seq<Card>, x: Card)
    ensures Count(Deal(deck), x) == Occ(deck, x)
  {
    DealFromConserves(Opening(deck), 0);
    OpeningCount(deck, x);
  }

  /** In a sequence of distinct printed cards, each card occurs at most once. */
  lemma {:induction false} OccDistinct(s: seq<Card>, x: Card)
    requires forall i :: 0 <= i < |s| ==> Strip(s[i]) == s[i]
    requires forall i, j :: 0 <= i < j < |s| ==> s[i] != s[j]
    ensures Occ(s, x) == if x in s then 1 else 0
    decreases |s|
  {
    if |s| > 0 {
      var n := |s| - 1;
      OccDistinct(s[..n], x);
      assert x in s <==> x in s[..n] || x == s[n];
      if x == s[n] {
        assert x !in s[..n];
      }
    }
  }

  /** The fresh deck holds each of its cards once. */
  lemma DeckOcc(x: Card)
    ensures Occ(CreateDeck(), x) == if x in CreateDeck() then 1 else 0
  {
    var deck := CreateDeck();
    forall i | 0 <= i < |deck|
      ensures Strip(deck[i]) == deck[i]
    {
      DeckIsPrinted(deck[i]);
    }
    OccDistinct(deck, x);
  }

  /** Shuffling the fresh deck keeps every count. */
  lemma ShuffledOcc(picks: seq<nat>, x: Card)
    requires ValidPicks(picks, DeckSize)
    ensures Occ(Shuffle(CreateDeck(), picks), x) == Occ(CreateDeck(), x)
  {
    var deck := CreateDeck();
    forall i | 0 <= i < |deck|
      ensures Strips(deck)[i] == deck[i]
    {
      DeckIsPrinted(deck[i]);
    }
    ShuffledDeckIsPrinted(picks);
    OccPermutation(Shuffle(deck, picks), deck, x);
  }

  /** A new game lays out each card of the fresh deck exactly once. */
  lemma NewGameHoldsDeck(picks: seq<nat>)
    requires ValidPicks(picks, DeckSize)
    ensures HoldsDeck(NewGame(picks))
  {
    DealSize(Shuffle(CreateDeck(), picks));
    forall x
      ensures Count(NewGame(picks), x) == (if x in CreateDeck() then 1 else 0)
    {
      DealCount(Shuffle(CreateDeck(), picks), x);
      ShuffledOcc(picks, x);
      DeckOcc(x);
    }
  }

  /** Occurrence counts of printed cards agree on sequences with the same elements. */
  lemma OccPermutation(a: seq<Card>, b: seq<Card>, x: Card)
    requires multiset(a) == multiset(b)
    requires Strips(a) == a && Strips(b) == b
    ensures Occ(a, x) == Occ(b, x)
  {
    OccIsMultiplicity(a, x);
    OccIsMultiplicity(b, x);
  }

  /** For a sequence of printed cards, `Occ` is the multiplicity. */
  lemma {:induction false} OccIsMultiplicity(a: seq<Card>, x: Card)
    requires Strips(a) == a
    ensures Occ(a, x) == multiset(a)[x]
    decreases |a|
  {
    if |a| > 0 {
      var n := |a| - 1;
      assert a == a[..n] + [a[n]];
      assert Strips(a[..n]) == Strips(a)[..n];
      assert Strip(a[n]) == Strips(a)[n] == a[n];
      OccIsMultiplicity(a[..n], x);
    }
  }

  /** Every player action conserves the cards. */
  lemma ApplyConserves(g: Game, a: Action)
    requires ActionOk(a)
    ensures Conserves(g, Apply(g, a))
  {
    match a
    case ClickStock => DrawConserves(g);
    case DragTo(card, target) =>
      var d := BeginDrag(g, card);
      if d.Some? && target.Some? && CanDrop(g, d.value.moving, target.value) {
        MoveStackConserves(g, d.value.source, d.value.startIdx, target.value);
      }
    case AutoPlay(card) =>
      if AutoFoundation(g, card).moved {
        var src := card.location.value;
        var p := Pile(g, src);
        var i :| 0 <= i < FoundationCount && CanDrop(g, [card], Foundation(i))
                 && AutoFoundation(g, card).game == MoveStack(g, src, IndexOf(p, card), Foundation(i));
        MoveStackConserves(g, src, IndexOf(p, card), Foundation(i));
      }
  }

  /** Any sequence of player actions conserves the cards. */
  lemma {:induction false} PlayConserves(g: Game, acts: seq<Action>)
    requires forall i :: 0 <= i < |acts| ==> ActionOk(acts[i])
    ensures Conserves(g, Play(g, acts))
    decreases |acts|
  {
    if |acts| > 0 {
      ApplyConserves(g, acts[0]);
      PlayConserves(Apply(g, acts[0]), acts[1..]);
    }
  }

  /** Every board reachable from a new game holds exactly the 52 cards of the deck. */
  lemma ReachableHoldsDeck(picks: seq<nat>, acts: seq<Action>)
    requires ValidPicks(picks, DeckSize)
    requires forall i :: 0 <= i < |acts| ==> ActionOk(acts[i])
    ensures HoldsDeck(Play(NewGame(picks), acts))
  {
    NewGameHoldsDeck(picks);
    PlayConserves(NewGame(picks), acts);
  }
}

=== FILE: invariants.dfy ===
/**
  The board invariants and their preservation.

  `Valid(g)` holds of every board a player can reach: the board holds the
  52 cards of the deck exactly once; the stock is face-down and the waste
  face-up; each foundation is Ace, 2, ..., n of one suit; each tableau pile
  keeps its face-down cards as a bottom prefix, shows its top, and its
  face-up cards descend by one in alternating colours; and every card's
  location names the pile that holds it.
 */
module KlondikeProofs {
  import opened Wrappers
  import opened Cards
  import opened Klondike
  import opened Conservation

  predicate LocatedAt(p: seq<Card>, r: PileRef) {
    forall i :: 0 <= i < |p| ==> p[i].location == Some(r)
  }

  predicate AllFaceDown(p: seq<Card>) {
    forall i :: 0 <= i < |p| ==> !p[i].faceUp
  }

  /** Ace, 2, ..., n of one suit, bottom to top. */
  predicate FoundationRun(p: seq<Card>) {
    forall i :: 0 <= i < |p| ==> p[i].value == i + 1 && p[i].suit == p[0].suit
  }

  /** Face-down cards form a bottom prefix, and a non-empty pile shows its top. */
  predicate FaceDownPrefix(p: seq<Card>) {
    && (forall i, j :: 0 <= i < j < |p| && p[i].faceUp ==> p[j].faceUp)
    && (|p| > 0 ==> p[|p| - 1].faceUp)
  }

  /** Each face-up card is covered (if at all) by a card of the other colour one rank lower. */
  predicate RunOk(p: seq<Card>) {
    forall i :: 0 <= i < |p| - 1 && p[i].faceUp ==>
      p[i + 1].color != p[i].color && p[i + 1].value + 1 == p[i].value
  }

  /** The shape rule of each kind of pile. */
  predicate PileOk(r: PileRef, p: seq<Card>) {
    match r
    case Stock => AllFaceDown(p) && LocatedAt(p, r)
    case Waste => AllFaceUp(p) && LocatedAt(p, r)
    case Foundation(_) => FoundationRun(p) && AllFaceUp(p) && LocatedAt(p, r)
    case Tableau(_) => FaceDownPrefix(p) && RunOk(p) && LocatedAt(p, r)
  }

  ghost predicate Valid(g: Game)
  {
    && HoldsDeck(g)
    && forall r :: ValidRef(r) ==> PileOk(r, Pile(g, r))
  }

  // ---------------------------------------------------------------------
  // The deal.

  /** Column `c` as the deal leaves it: rows 0..c popped off the end of the deck, only row c face-up. */
  function Column(deck: seq<Card>, c: nat): (col: seq<Card>)
    requires c < TableauCount && |deck| == DeckSize
    ensures |col| == c + 1
    ensures forall r :: 0 <= r <= c ==>
              && Dealt(c) + r < DeckSize
              && col[r] == Placed(deck[DeckSize - 1 - Dealt(c) - r], r == c, Tableau(c))
  {
    DealtBound(c);
    seq(c + 1, r requires 0 <= r <= c => Placed(deck[DeckSize - 1 - Dealt(c) - r], r == c, Tableau(c)))
  }

  /** The cards rows `row..col` of column `col` receive from stock `s`: its top cards, top first. */
  function Popped(s: seq<Card>, col: nat, row: nat): (q: seq<Card>)
    requires row <= col + 1 && |s| >= col + 1 - row
    ensures |q| == col + 1 - row
    ensures forall t :: 0 <= t < |q| ==> q[t] == Placed(s[|s| - 1 - t], row + t == col, Tableau(col))
    decreases col + 1 - row
  {
    if row > col then []
    else [Placed(s[|s| - 1], row == col, Tableau(col))] + Popped(s[..|s| - 1], col, row + 1)
  }

  /** Dealing rows `row..col` of column `col` pops that many cards off the stock onto that column. */
  lemma DealColumnShape(g: Game, col: nat, row: nat)
    requires col < TableauCount && row <= col + 1
    requires |g.stock| >= col + 1 - row
    ensures var g' := DealColumn(g, col, row);
            && g'.stock == g.stock[..|g.stock| - (col + 1 - row)]
            && g'.tableau[col] == g.tableau[col] + Popped(g.stock, col, row)
            && (forall c :: 0 <= c < TableauCount && c != col ==> g'.tableau[c] == g.tableau[c])
            && g'.waste == g.waste && g'.foundations == g.foundations && g'.complete == g.complete
  {
    DealColumnRest(g, col, row);
    DealColumnCards(g, col, row);
  }

  lemma {:induction false} DealColumnRest(g: Game, col: nat, row: nat)
    requires col < TableauCount && row <= col + 1
    requires |g.stock| >= col + 1 - row
    ensures var g' := DealColumn(g, col, row);
            && g'.stock == g.stock[..|g.stock| - (col + 1 - row)]
            && (forall c :: 0 <= c < TableauCount && c != col ==> g'.tableau[c] == g.tableau[c])
            && g'.waste == g.waste && g'.foundations == g.foundations && g'.complete == g.complete
    decreases col + 1 - row
  {
    if row <= col {
      var n := |g.stock| - 1;
      var g1 := PopTo(g, col, row == col);
      DealColumnRest(g1, col, row + 1);
      assert g1.stock[..n - (col - row)] == g.stock[..n + 1 - (col + 1 - row)];
    } else {
      assert g.stock[..|g.stock|] == g.stock;
    }
  }

  lemma {:induction false} DealColumnCards(g: Game, col: nat, row: nat)
    requires col < TableauCount && row <= col + 1
    requires |g.stock| >= col + 1 - row
    ensures DealColumn(g, col, row).tableau[col] == g.tableau[col] + Popped(g.stock, col, row)
    decreases col + 1 - row
  {
    if row <= col {
      var n := |g.stock| - 1;
      var top := Placed(g.stock[n], row == col, Tableau(col));
      var g1 := PopTo(g, col, row == col);
      var rest := Popped(g1.stock, col, row + 1);
      DealColumnCards(g1, col, row + 1);
      assert DealColumn(g, col, row) == DealColumn(g1, col, row + 1);
      assert Popped(g.stock, col, row) == [top] + rest;
      AppendAssoc(g.tableau[col], [top], rest);
    } else {
      assert g.tableau[col] + [] == g.tableau[col];
    }
  }

  lemma AppendAssoc(a: seq<Card>, b: seq<Card>, c: seq<Card>)
    ensures (a + b) + c == a + (b + c)
  {
  }

  /** The board after columns 0..col-1 have been dealt from `deck`. */
  ghost predicate DealtUpTo(deck: seq<Card>, g: Game, col: nat)
    requires |deck| == DeckSize && col <= TableauCount
  {
    && Dealt(col) <= DeckSize
    && g.stock == Stocked(deck)[..DeckSize - Dealt(col)]
    && g.waste == []
    && g.foundations == EmptyFoundations()
    && (forall c :: 0 <= c < col ==> g.tableau[c] == Column(deck, c))
    && (forall c :: col <= c < TableauCount ==> g.tableau[c] == [])
  }

  lemma NextColumn(deck: seq<Card>, g: Game, col: nat)
    requires |deck| == DeckSize && col < TableauCount
    requires DealtUpTo(deck, g, col)
    ensures DealtUpTo(deck, DealColumn(g, col, 0), col + 1)
  {
    DealtBound(col);
    DealColumnShape(g, col, 0);
    PoppedColumn(deck, col, g.stock);
    assert g.stock[..|g.stock| - (col + 1)] == Stocked(deck)[..DeckSize - Dealt(col + 1)];
  }

  /** The cards column `col` receives from the partly dealt stock are `Column(deck, col)`. */
  lemma PoppedColumn(deck: seq<Card>, col: nat, s: seq<Card>)
    requires |deck| == DeckSize && col < TableauCount
    requires Dealt(col) + col + 1 <= 28
    requires s == Stocked(deck)[..DeckSize - Dealt(col)]
    ensures Popped(s, col, 0) == Column(deck, col)
  {
    var p := Popped(s, col, 0);
    var c := Column(deck, col);
    forall t | 0 <= t <= col
      ensures p[t] == c[t]
    {
      assert s[|s| - 1 - t] == Placed(deck[DeckSize - 1 - Dealt(col) - t], false, Stock);
    }
  }

  lemma {:induction false} DealFromShape(deck: seq<Card>, g: Game, col: nat)
    requires |deck| == DeckSize && col <= TableauCount
    requires DealtUpTo(deck, g, col)
    ensures DealtUpTo(deck, DealFrom(g, col), TableauCount)
    decreases TableauCount - col
  {
    if col < TableauCount {
      NextColumn(deck, g, col);
      DealFromShape(deck, DealColumn(g, col, 0), col + 1);
    }
  }

  /**
    The deal leaves the bottom 24 cards of the deck face-down in the stock,
    column c holds c+1 cards popped off the deck's end with only its top
    face-up, and the waste and the foundations are empty.
   */
  lemma DealShape(deck: seq<Card>)
    requires |deck| == DeckSize
    ensures Deal(deck).stock == Stocked(deck)[..DeckSize - 28]
    ensures Deal(deck).waste == [] && Deal(deck).foundations == EmptyFoundations()
    ensures forall c :: 0 <= c < TableauCount ==> Deal(deck).tableau[c] == Column(deck, c)
  {
    OpeningDealt(deck);
    DealFromShape(deck, Opening(deck), 0);
    FullyDealt(deck, Deal(deck));
  }

  lemma OpeningDealt(deck: seq<Card>)
    requires |deck| == DeckSize
    ensures DealtUpTo(deck, Opening(deck), 0)
  {
    assert Stocked(deck)[..DeckSize - Dealt(0)] == Stocked(deck);
  }

  lemma FullyDealt(deck: seq<Card>, g: Game)
    requires |deck| == DeckSize && DealtUpTo(deck, g, TableauCount)
    ensures g.stock == Stocked(deck)[..DeckSize - 28]
    ensures g.waste == [] && g.foundations == EmptyFoundations()
    ensures forall c :: 0 <= c < TableauCount ==> g.tableau[c] == Column(deck, c)
  {
    assert Dealt(7) == 28;
  }

  lemma ColumnOk(deck: seq<Card>, c: nat)
    requires c < TableauCount && |deck| == DeckSize
    ensures PileOk(Tableau(c), Column(deck, c))
  {
    var p := Column(deck, c);
    assert forall i :: 0 <= i < |p| ==> (p[i].faceUp <==> i == c);
  }

  /** Every pile of a fresh deal has its shape. */
  lemma DealPilesOk(deck: seq<Card>)
    requires |deck| == DeckSize
    ensures forall r :: ValidRef(r) ==> PileOk(r, Pile(Deal(deck), r))
  {
    DealShape(deck);
    ShapedPilesOk(deck, Deal(deck));
  }

  lemma ShapedPilesOk(deck: seq<Card>, g: Game)
    requires |deck| == DeckSize
    requires g.stock == Stocked(deck)[..DeckSize - 28]
    requires g.waste == [] && g.foundations == EmptyFoundations()
    requires forall c :: 0 <= c < TableauCount ==> g.tableau[c] == Column(deck, c)
    ensures forall r :: ValidRef(r) ==> PileOk(r, Pile(g, r))
  {
    forall r | ValidRef(r)
      ensures PileOk(r, Pile(g, r))
    {
      match r
      case Stock =>
      case Waste =>
      case Foundation(i) =>
      case Tableau(c) => ColumnOk(deck, c);
    }
  }

  /** A new game satisfies every invariant. */
  lemma NewGameValid(picks: seq<nat>)
    requires ValidPicks(picks, DeckSize)
    ensures Valid(NewGame(picks))
  {
    NewGameHoldsDeck(picks);
    DealPilesOk(Shuffle(CreateDeck(), picks));
  }

  // ---------------------------------------------------------------------
  // The stock click.

  lemma DrawValid(g: Game)
    requires Valid(g)
    ensures Valid(Draw(g))
  {
    var g' := Draw(g);
    DrawConserves(g);
    forall r | ValidRef(r)
      ensures PileOk(r, Pile(g', r))
    {
      assert PileOk(r, Pile(g, r));
    }
  }

  /** `n` clicks on the stock. */
  function DrawN(g: Game, n: nat): Game
    decreases n
  {
    if n == 0 then g else DrawN(Draw(g), n - 1)
  }

  /** The cards `n` draws take from stock `s`, in the order they land on the waste. */
  function Turned(s: seq<Card>, n: nat): (q: seq<Card>)
    requires n <= |s|
    ensures |q| == n
    ensures forall t :: 0 <= t < n ==> q[t] == Placed(s[|s| - 1 - t], true, Waste)
    decreases n
  {
    if n == 0 then [] else [Placed(s[|s| - 1], true, Waste)] + Turned(s[..|s| - 1], n - 1)
  }

  /** Drawing n cards moves the stock's top n cards, top first, face-up onto the waste. */
  lemma DrawNShape(g: Game, n: nat)
    requires n <= |g.stock|
    ensures DrawN(g, n).stock == g.stock[..|g.stock| - n]
    ensures DrawN(g, n).waste == g.waste + Turned(g.stock, n)
    ensures DrawN(g, n).foundations == g.foundations && DrawN(g, n).tableau == g.tableau
    ensures DrawN(g, n).complete == g.complete
  {
    DrawNRest(g, n);
    DrawNWaste(g, n);
  }

  lemma {:induction false} DrawNRest(g: Game, n: nat)
    requires n <= |g.stock|
    ensures DrawN(g, n).stock == g.stock[..|g.stock| - n]
    ensures DrawN(g, n).foundations == g.foundations && DrawN(g, n).tableau == g.tableau
    ensures DrawN(g, n).complete == g.complete
    decreases n
  {
    var s := |g.stock|;
    if n > 0 {
      var g1 := Draw(g);
      DrawNRest(g1, n - 1);
      assert g1.stock[..s - 1 - (n - 1)] == g.stock[..s - n];
    } else {
      assert g.stock[..s] == g.stock;
    }
  }

  lemma {:induction false} DrawNWaste(g: Game, n: nat)
    requires n <= |g.stock|
    ensures DrawN(g, n).waste == g.waste + Turned(g.stock, n)
    decreases n
  {
    if n > 0 {
      var g1 := Draw(g);
      DrawNWaste(g1, n - 1);
      assert g1.waste + Turned(g1.stock, n - 1) == g.waste + Turned(g.stock, n);
    } else {
      assert g.waste + [] == g.waste;
    }
  }

  /**
    Turning over a face-up waste into an empty stock and then drawing every
    card restores the board exactly: the waste comes back in its original
    order, face-up.
   */
  lemma RecycleThenDrawAll(g: Game)
    requires g.stock == [] && |g.waste| > 0
    requires AllFaceUp(g.waste) && LocatedAt(g.waste, Waste)
    ensures DrawN(g, |g.waste| + 1) == g
  {
    var w := g.waste;
    var g1 := Draw(g);
    DrawNShape(g1, |w|);
    assert Turned(g1.stock, |w|) == w;
    assert [] + w == w;
    assert g1.stock[..0] == [];
  }

  // ---------------------------------------------------------------------
  // Distinct cards.

  lemma {:induction false} OccPositive(p: seq<Card>, i: nat)
    requires i < |p|
    ensures Occ(p, Strip(p[i])) >= 1
    decreases |p|
  {
    if i < |p| - 1 {
      OccPositive(p[..|p| - 1], i);
    }
  }

  lemma {:induction false} OccAllAtLeast(ps: seq<seq<Card>>, i: nat, x: Card)
    requires i < |ps|
    ensures Occ(ps[i], x) <= OccAll(ps, x)
    decreases |ps|
  {
    if i < |ps| - 1 {
      OccAllAtLeast(ps[..|ps| - 1], i, x);
    }
  }

  /** A pile's count of a card never exceeds the board's. */
  lemma PileOccAtMost(g: Game, r: PileRef, x: Card)
    requires ValidRef(r)
    ensures Occ(Pile(g, r), x) <= Count(g, x)
  {
    match r
    case Stock =>
    case Waste =>
    case Foundation(i) => OccAllAtLeast(g.foundations, i, x);
    case Tableau(i) => OccAllAtLeast(g.tableau, i, x);
  }

  /** Every card on a valid board is, as printed, a card of the fresh deck. */
  lemma OnBoardIsDeckCard(g: Game, r: PileRef, i: nat)
    requires Valid(g) && ValidRef(r) && i < |Pile(g, r)|
    ensures Strip(Pile(g, r)[i]) in CreateDeck()
    ensures 1 <= Pile(g, r)[i].value <= RankCount
  {
    var p := Pile(g, r);
    OccPositive(p, i);
    PileOccAtMost(g, r, Strip(p[i]));
  }

  /** No pile of a valid board holds the same card twice. */
  lemma NoRepeats(g: Game, r: PileRef, i: nat, j: nat)
    requires Valid(g) && ValidRef(r) && i < j < |Pile(g, r)|
    ensures Pile(g, r)[i] != Pile(g, r)[j]
  {
    var p := Pile(g, r);
    if p[i] == p[j] {
      var x := Strip(p[i]);
      OccSplit(p, j, x);
      OccPositive(p[..j], i);
      OccPositive(p[j..], 0);
      PileOccAtMost(g, r, x);
    }
  }

  lemma FirstIndexIsIndex(g: Game, r: PileRef, i: nat)
    requires Valid(g) && ValidRef(r) && i < |Pile(g, r)|
    ensures Pile(g, r)[i] !in Pile(g, r)[..i]
    ensures IndexOf(Pile(g, r), Pile(g, r)[i]) == i
  {
    var p := Pile(g, r);
    forall k | 0 <= k < i
      ensures p[..i][k] != p[i]
    {
      NoRepeats(g, r, k, i);
    }
  }

  // ---------------------------------------------------------------------
  // Moves keep the board valid.

  /**
    What a player sees on a valid board: every pile but the stock shows a
    face-up top, and a non-empty foundation starts with an Ace.
   */
  lemma ValidVisible(g: Game, r: PileRef)
    requires Valid(g) && ValidRef(r)
    ensures r != Stock && |Pile(g, r)| > 0 ==> Pile(g, r)[|Pile(g, r)| - 1].faceUp
    ensures r.Foundation? && |Pile(g, r)| > 0 ==> Pile(g, r)[0].value == 1
  {
    PileOkOf(g, r);
  }

  lemma PileOkOf(g: Game, r: PileRef)
    requires Valid(g) && ValidRef(r)
    ensures PileOk(r, Pile(g, r))
  {
  }

  /** Above a face-up tableau card, the ranks descend by one per card. */
  lemma {:induction false} RunDescends(p: seq<Card>, k: nat, j: nat)
    requires FaceDownPrefix(p) && RunOk(p)
    requires k <= j < |p| && p[k].faceUp
    ensures p[j].value + (j - k) == p[k].value
    decreases j - k
  {
    if j > k {
      RunDescends(p, k, j - 1);
      assert p[j - 1].faceUp;
    }
  }

  /** A pile never accepts a stack taken from its own top. */
  lemma NoDropOnOwnPile(g: Game, src: PileRef, k: nat)
    requires Valid(g) && ValidRef(src)
    requires k < |Pile(g, src)| && Pile(g, src)[k].faceUp
    requires src.Tableau? || k == |Pile(g, src)| - 1
    ensures !CanDrop(g, Pile(g, src)[k..], src)
  {
    var p := Pile(g, src);
    if src.Tableau? {
      RunDescends(p, k, |p| - 1);
    }
  }

  /** What a move leaves of the source pile keeps its shape. */
  lemma SourceAfterOk(r: PileRef, p: seq<Card>, k: nat)
    requires PileOk(r, p) && k <= |p|
    ensures PileOk(r, if r.Tableau? then FlipTop(p[..k]) else p[..k])
  {
    if r.Tableau? {
      var q := FlipTop(p[..k]);
      assert forall i :: 0 <= i < k ==> q[i].color == p[i].color && q[i].value == p[i].value;
      assert forall i :: 0 <= i < k - 1 ==> q[i] == p[i];
    }
  }

  /**
    A stack cut from a valid pile keeps the run rule; when it is all face-up,
    as every stack a drag carries is, it is a descending run of alternating colours.
   */
  lemma MovingRun(r: PileRef, p: seq<Card>, k: nat)
    requires PileOk(r, p) && k < |p| && (r.Tableau? || k == |p| - 1)
    ensures RunOk(p[k..])
    ensures AllFaceUp(p[k..]) ==>
              forall i :: k <= i < |p| - 1 ==> p[i + 1].color != p[i].color && p[i + 1].value + 1 == p[i].value
  {
    if r.Tableau? {
      assert forall i :: 0 <= i < |p| - k ==> p[k..][i] == p[k + i];
    }
  }

  /** A card one higher of the same suit (an Ace on an empty pile) extends a foundation. */
  lemma FoundationPushOk(d: seq<Card>, c: Card, i: nat)
    requires PileOk(Foundation(i), d) && c.faceUp
    requires if |d| == 0 then c.value == 1 else d[|d| - 1].suit == c.suit && c.value == d[|d| - 1].value + 1
    ensures PileOk(Foundation(i), d + Relocate([c], Foundation(i)))
  {
  }

  /** A face-up run whose first card fits under the top (any run on an empty pile) extends a tableau pile. */
  lemma TableauPushOk(d: seq<Card>, m: seq<Card>, j: nat)
    requires PileOk(Tableau(j), d) && |m| > 0 && AllFaceUp(m) && RunOk(m)
    requires |d| > 0 ==> d[|d| - 1].color != m[0].color && d[|d| - 1].value == m[0].value + 1
    ensures PileOk(Tableau(j), d + Relocate(m, Tableau(j)))
  {
    PushRunOk(d, Relocate(m, Tableau(j)));
    PushPrefixOk(d, Relocate(m, Tableau(j)));
  }

  lemma PushRunOk(d: seq<Card>, m: seq<Card>)
    requires RunOk(d) && RunOk(m) && |m| > 0
    requires |d| > 0 && d[|d| - 1].faceUp ==> d[|d| - 1].color != m[0].color && d[|d| - 1].value == m[0].value + 1
    ensures RunOk(d + m)
  {
    var q := d + m;
    forall i | 0 <= i < |q| - 1 && q[i].faceUp
      ensures q[i + 1].color != q[i].color && q[i + 1].value + 1 == q[i].value
    {
      if i >= |d| {
        assert q[i] == m[i - |d|] && q[i + 1] == m[i + 1 - |d|];
      }
    }
  }

  lemma PushPrefixOk(d: seq<Card>, m: seq<Card>)
    requires FaceDownPrefix(d) && AllFaceUp(m) && |m| > 0
    ensures FaceDownPrefix(d + m)
  {
    var q := d + m;
    forall i, k | 0 <= i < k < |q| && q[i].faceUp
      ensures q[k].faceUp
    {
      if k >= |d| {
        assert q[k] == m[k - |d|];
      }
    }
  }

  /** A legal drop keeps the destination's shape. */
  lemma DestAfterOk(g: Game, m: seq<Card>, dst: PileRef)
    requires ValidRef(dst) && PileOk(dst, Pile(g, dst))
    requires CanDrop(g, m, dst) && AllFaceUp(m) && RunOk(m)
    ensures PileOk(dst, Pile(g, dst) + Relocate(m, dst))
  {
    match dst
    case Foundation(i) =>
      assert m == [m[0]];
      FoundationPushOk(Pile(g, dst), m[0], i);
    case Tableau(j) =>
      TableauPushOk(Pile(g, dst), m, j);
  }

  /**
    A move that drag eligibility and the drop rule allow keeps the board
    valid: the carried cards are a face-up run taken from the top of their
    pile, and the destination accepts them.
   */
  lemma MoveValid(g: Game, src: PileRef, k: nat, dst: PileRef)
    requires Valid(g) && ValidRef(src) && ValidRef(dst)
    requires k < |Pile(g, src)| && AllFaceUp(Pile(g, src)[k..])
    requires src.Tableau? || k == |Pile(g, src)| - 1
    requires CanDrop(g, Pile(g, src)[k..], dst)
    ensures Valid(MoveStack(g, src, k, dst))
  {
    MoveStackConserves(g, src, k, dst);
    MovedPilesOk(g, src, k, dst);
    TwoPilesChanged(g, MoveStack(g, src, k, dst), src, dst);
  }

  /** The two piles a legal move touches keep their shape. */
  lemma MovedPilesOk(g: Game, src: PileRef, k: nat, dst: PileRef)
    requires Valid(g) && ValidRef(src) && ValidRef(dst)
    requires k < |Pile(g, src)| && AllFaceUp(Pile(g, src)[k..])
    requires src.Tableau? || k == |Pile(g, src)| - 1
    requires CanDrop(g, Pile(g, src)[k..], dst)
    ensures src != dst
    ensures PileOk(src, Pile(MoveStack(g, src, k, dst), src))
    ensures PileOk(dst, Pile(MoveStack(g, src, k, dst), dst))
  {
    var p := Pile(g, src);
    assert p[k..][0] == p[k];
    NoDropOnOwnPile(g, src, k);
    PileOkOf(g, src);
    PileOkOf(g, dst);
    SourceAfterOk(src, p, k);
    MovingRun(src, p, k);
    DestAfterOk(g, p[k..], dst);
  }

  /** Replacing two piles by well-formed ones keeps every pile well-formed. */
  lemma TwoPilesChanged(g: Game, g': Game, a: PileRef, b: PileRef)
    requires forall r :: ValidRef(r) ==> PileOk(r, Pile(g, r))
    requires PileOk(a, Pile(g', a)) && PileOk(b, Pile(g', b))
    requires forall r :: r != a && r != b ==> Pile(g', r) == Pile(g, r)
    ensures forall r :: ValidRef(r) ==> PileOk(r, Pile(g', r))
  {
    forall r | ValidRef(r)
      ensures PileOk(r, Pile(g', r))
    {
      if r != a && r != b {
        assert PileOk(r, Pile(g, r));
      }
    }
  }

  lemma DragValid(g: Game, card: Card, target: Option<PileRef>)
    requires Valid(g) && (target.Some? ==> ValidRef(target.value))
    ensures Valid(Apply(g, DragTo(card, target)))
  {
    var d := BeginDrag(g, card);
    if d.Some? && target.Some? && CanDrop(g, d.value.moving, target.value) {
      MoveValid(g, d.value.source, d.value.startIdx, target.value);
    }
  }

  lemma AutoPlayValid(g: Game, card: Card)
    requires Valid(g)
    ensures Valid(AutoFoundation(g, card).game)
  {
    if AutoFoundation(g, card).moved {
      AutoPlayMoved(g, card);
      TopToFoundationValid(g, card.location.value, FirstFoundation(g, card, 0).value);
    }
  }

  /** Moving the top card of a pile onto a foundation that accepts it keeps the board valid. */
  lemma TopToFoundationValid(g: Game, src: PileRef, i: nat)
    requires Valid(g) && ValidRef(src) && i < FoundationCount
    requires var p := Pile(g, src); |p| > 0 && p[|p| - 1].faceUp
    requires var p := Pile(g, src); CanDrop(g, [p[|p| - 1]], Foundation(i))
    ensures var p := Pile(g, src); Valid(MoveStack(g, src, IndexOf(p, p[|p| - 1]), Foundation(i)))
  {
    var p := Pile(g, src);
    FirstIndexIsIndex(g, src, |p| - 1);
    assert p[|p| - 1..] == [p[|p| - 1]];
    MoveValid(g, src, |p| - 1, Foundation(i));
  }

  /** An auto-play that goes ahead is the stack move of the top card to the first accepting foundation. */
  lemma AutoPlayMoved(g: Game, card: Card)
    requires AutoFoundation(g, card).moved
    ensures card.faceUp && card.location.Some? && ValidRef(card.location.value)
    ensures var p := Pile(g, card.location.value); |p| > 0 && p[|p| - 1] == card
    ensures FirstFoundation(g, card, 0).Some?
    ensures AutoFoundation(g, card).game ==
              MoveStack(g, card.location.value, IndexOf(Pile(g, card.location.value), card),
                        Foundation(FirstFoundation(g, card, 0).value))
  {
  }

  /** Every player action keeps the board valid. */
  lemma ApplyValid(g: Game, a: Action)
    requires Valid(g) && ActionOk(a)
    ensures Valid(Apply(g, a))
  {
    match a
    case ClickStock => DrawValid(g);
    case DragTo(card, target) => DragValid(g, card, target);
    case AutoPlay(card) => AutoPlayValid(g, card);
  }

  lemma {:induction false} PlayValid(g: Game, acts: seq<Action>)
    requires Valid(g)
    requires forall i :: 0 <= i < |acts| ==> ActionOk(acts[i])
    ensures Valid(Play(g, acts))
    decreases |acts|
  {
    if |acts| > 0 {
      ApplyValid(g, acts[0]);
      PlayValid(Apply(g, acts[0]), acts[1..]);
    }
  }

  /** Every board reachable from a new game is valid. */
  lemma ReachableValid(picks: seq<nat>, acts: seq<Action>)
    requires ValidPicks(picks, DeckSize)
    requires forall i :: 0 <= i < |acts| ==> ActionOk(acts[i])
    ensures Valid(Play(NewGame(picks), acts))
  {
    NewGameValid(picks);
    PlayValid(NewGame(picks), acts);
  }
}

=== FILE: klondike.dfy ===
/**
  The Klondike engine as pure functions over an immutable board: the deal,
  the drop-legality rule, the stack move, the stock/waste cycle, drag and
  auto-play eligibility, and the win test.
 */
module Klondike {
  import opened Wrappers
  import opened Cards

  type Foundations = fs: seq<seq<Card>> | |fs| == FoundationCount witness [[], [], [], []]
  type Tableaux = ts: seq<seq<Card>> | |ts| == TableauCount witness [[], [], [], [], [], [], []]

  /**
    The board: piles bottom to top (index 0 is the bottom, the last card is
    the exposed top), plus whether the board has been marked complete.
   */
  datatype Game = Game(
    stock: seq<Card>,
    waste: seq<Card>,
    foundations: Foundations,
    tableau: Tableaux,
    complete: bool)

  /** A pile reference that names one of the board's thirteen piles. */
  predicate ValidRef(r: PileRef) {
    match r
    case Foundation(i) => i < FoundationCount
    case Tableau(i) => i < TableauCount
    case _ => true
  }

  /** The cards of pile `r`; an index beyond the board yields an empty, detached pile. */
  function Pile(g: Game, r: PileRef): (p: seq<Card>)
    ensures r == Stock ==> p == g.stock
    ensures r == Waste ==> p == g.waste
    ensures r.Foundation? ==> p == (if r.index < FoundationCount then g.foundations[r.index] else [])
    ensures r.Tableau? ==> p == (if r.index < TableauCount then g.tableau[r.index] else [])
  {
    match r
    case Stock => g.stock
    case Waste => g.waste
    case Foundation(i) => if i < |g.foundations| then g.foundations[i] else []
    case Tableau(i) => if i < |g.tableau| then g.tableau[i] else []
  }

  /** Sum of the pile lengths, as the win test's reduce computes it. */
  function TotalLength(ps: seq<seq<Card>>): nat
    decreases |ps|
  {
    if |ps| == 0 then 0 else TotalLength(ps[..|ps| - 1]) + |ps[|ps| - 1]|
  }

  /** The board with pile `r` replaced by `p`; no other pile changes. */
  function SetPile(g: Game, r: PileRef, p: seq<Card>): (g': Game)
    requires ValidRef(r)
    ensures Pile(g', r) == p
    ensures forall r' :: r' != r ==> Pile(g', r') == Pile(g, r')
    ensures g'.complete == g.complete
  {
    match r
    case Stock => g.(stock := p)
    case Waste => g.(waste := p)
    case Foundation(i) => g.(foundations := g.foundations[i := p])
    case Tableau(i) => g.(tableau := g.tableau[i := p])
  }

  // ---------------------------------------------------------------------
  // Small pile transformations.

  /** The moved cards with their location set to the destination pile. */
  function Relocate(s: seq<Card>, r: PileRef): (t: seq<Card>)
    ensures |t| == |s|
    ensures forall i :: 0 <= i < |s| ==> t[i] == s[i].(location := Some(r))
    ensures Strips(t) == Strips(s)
  {
    var t := seq(|s|, i requires 0 <= i < |s| => s[i].(location := Some(r)));
    assert Strips(t) == Strips(s);
    t
  }

  /** The pile with its top card turned face-up (no change when empty or already face-up). */
  function FlipTop(p: seq<Card>): (q: seq<Card>)
    ensures |q| == |p|
    ensures forall i :: 0 <= i < |p| - 1 ==> q[i] == p[i]
    ensures |p| > 0 ==> q[|p| - 1] == p[|p| - 1].(faceUp := true)
    ensures Strips(q) == Strips(p)
  {
    if |p| == 0 then p
    else
      var q := p[..|p| - 1] + [p[|p| - 1].(faceUp := true)];
      assert Strips(q) == Strips(p);
      q
  }

  predicate AllFaceUp(s: seq<Card>) {
    forall i :: 0 <= i < |s| ==> s[i].faceUp
  }

  // ---------------------------------------------------------------------
  // Win test.

  function FoundationTotal(g: Game): nat {
    TotalLength(g.foundations)
  }

  /** The game is won when the foundations hold 52 cards between them. */
  predicate Won(g: Game): (w: bool)
    ensures w <==> |g.foundations[0]| + |g.foundations[1]| + |g.foundations[2]| + |g.foundations[3]| == DeckSize
  {
    var f := g.foundations;
    assert f[..3][..2] == f[..2] && f[..2][..1] == f[..1] && f[..1][..0] == [];
    assert TotalLength(f[..1]) == |f[0]|;
    assert TotalLength(f[..2]) == |f[0]| + |f[1]|;
    assert TotalLength(f[..3]) == |f[0]| + |f[1]| + |f[2]|;
    FoundationTotal(g) == DeckSize
  }

  // ---------------------------------------------------------------------
  // Legality.

  /**
    Whether the stack `moving` may be dropped on pile `dst`. The first card
    of the stack is what must fit; the stack's own face state is not looked
    at here (drag eligibility checks it before).
   */
  function CanDrop(g: Game, moving: seq<Card>, dst: PileRef): (ok: bool)
    requires ValidRef(dst)
    ensures ok ==> |moving| > 0 && (dst.Foundation? || dst.Tableau?)
    ensures ok && dst.Foundation? ==>
              && |moving| == 1
              && var d := Pile(g, dst);
              && (|d| == 0 ==> moving[0].value == 1)
              && (|d| > 0 ==> moving[0].suit == d[|d| - 1].suit && moving[0].value == d[|d| - 1].value + 1)
    ensures ok && dst.Tableau? ==>
              var d := Pile(g, dst);
              && (|d| == 0 ==> moving[0].value == RankCount)
              && (|d| > 0 ==> d[|d| - 1].faceUp && moving[0].color != d[|d| - 1].color
                              && moving[0].value + 1 == d[|d| - 1].value)
    ensures |moving| == 1 && dst.Foundation? && |Pile(g, dst)| == 0 && moving[0].value == 1 ==> ok
    ensures |moving| > 0 && dst.Tableau? && |Pile(g, dst)| == 0 && moving[0].value == RankCount ==> ok
  {
    if |moving| == 0 then false
    else
      match dst
      case Stock => false
      case Waste => false
      case Foundation(i) =>
        if |moving| != 1 then false
        else
          var d := g.foundations[i];
          if |d| == 0 then moving[0].value == 1
          else d[|d| - 1].suit == moving[0].suit && moving[0].value == d[|d| - 1].value + 1
      case Tableau(i) =>
        var d := g.tableau[i];
        if |d| == 0 then moving[0].value == RankCount
        else
          var top := d[|d| - 1];
          top.faceUp && top.color != moving[0].color && top.value == moving[0].value + 1
  }

  // ---------------------------------------------------------------------
  // The stack move.

  /** Where `splice(start)` cuts pile `p`: a start beyond the pile cuts nothing off. */
  function Cut(p: seq<Card>, start: nat): (k: nat)
    ensures k <= |p|
    ensures start <= |p| ==> k == start
    ensures |p| < start ==> k == |p|
  {
    if start <= |p| then start else |p|
  }

  /** Pushes `cards` on top of pile `dst`, each relocated to `dst`. */
  function Push(g: Game, dst: PileRef, cards: seq<Card>): (g': Game)
    requires ValidRef(dst)
    ensures Pile(g', dst) == Pile(g, dst) + Relocate(cards, dst)
    ensures forall r :: r != dst ==> Pile(g', r) == Pile(g, r)
    ensures g'.complete == g.complete
  {
    SetPile(g, dst, Pile(g, dst) + Relocate(cards, dst))
  }

  /** Turns the new top of a tableau source face-up; other piles expose nothing. */
  function ExposeTop(g: Game, src: PileRef): (g': Game)
    requires ValidRef(src)
    ensures Pile(g', src) == (if src.Tableau? then FlipTop(Pile(g, src)) else Pile(g, src))
    ensures forall r :: r != src ==> Pile(g', r) == Pile(g, r)
    ensures g'.complete == g.complete
  {
    if src.Tableau? then SetPile(g, src, FlipTop(Pile(g, src))) else g
  }

  /** The win check, run after a drop on a foundation: it marks the board complete. */
  function CheckWin(g: Game, dst: PileRef): (g': Game)
    ensures forall r :: Pile(g', r) == Pile(g, r)
    ensures g'.complete <==> g.complete || (dst.Foundation? && Won(g))
  {
    g.(complete := g.complete || (dst.Foundation? && Won(g)))
  }

  /**
    Moves `Pile(g, src)[start..]` on top of `dst` unchanged and in order,
    relocating the moved cards; turns a tableau source's new top face-up;
    runs the win check when the destination is a foundation. A stack
    dropped back on its own pile lands on top of what stayed behind, and the
    top of the result is turned face-up when the pile is a tableau pile.
   */
  function MoveStack(g: Game, src: PileRef, start: nat, dst: PileRef): (g': Game)
    requires ValidRef(src) && ValidRef(dst)
    ensures src != dst ==>
              var p := Pile(g, src);
              var k := Cut(p, start);
              && Pile(g', dst) == Pile(g, dst) + Relocate(p[k..], dst)
              && Pile(g', src) == (if src.Tableau? then FlipTop(p[..k]) else p[..k])
    ensures src == dst ==>
              var p := Pile(g, src);
              var k := Cut(p, start);
              var q := p[..k] + Relocate(p[k..], src);
              Pile(g', src) == (if src.Tableau? then FlipTop(q) else q)
    ensures forall r :: r != src && r != dst ==> Pile(g', r) == Pile(g, r)
    ensures g'.complete <==> g.complete || (dst.Foundation? && Won(g'))
  {
    var p := Pile(g, src);
    var k := Cut(p, start);
    CheckWin(ExposeTop(Push(SetPile(g, src, p[..k]), dst, p[k..]), src), dst)
  }

  // ---------------------------------------------------------------------
  // The stock / waste cycle.

  /**
    The recycle loop: popping the waste card by card into a new stock,
    each turned face-down; the new stock is the waste reversed.
   */
  function Recycle(w: seq<Card>): (s: seq<Card>)
    ensures |s| == |w|
    ensures forall i :: 0 <= i < |w| ==> s[i] == Placed(w[|w| - 1 - i], false, Stock)
    decreases |w|
  {
    if |w| == 0 then []
    else [Placed(w[|w| - 1], false, Stock)] + Recycle(w[..|w| - 1])
  }

  /**
    A click on the stock: with cards in the stock, its top card goes face-up
    on the waste; with an empty stock, the waste is turned over into a new
    stock; with both empty, nothing happens.
   */
  function Draw(g: Game): (g': Game)
    ensures g'.foundations == g.foundations && g'.tableau == g.tableau && g'.complete == g.complete
    ensures |g.stock| > 0 ==>
              && g'.stock == g.stock[..|g.stock| - 1]
              && g'.waste == g.waste + [Placed(g.stock[|g.stock| - 1], true, Waste)]
    ensures |g.stock| == 0 && |g.waste| > 0 ==>
              && g'.waste == []
              && |g'.stock| == |g.waste|
              && forall i :: 0 <= i < |g.waste| ==>
                   g'.stock[i] == Placed(g.waste[|g.waste| - 1 - i], false, Stock)
    ensures |g.stock| == 0 && |g.waste| == 0 ==> g' == g
  {
    if |g.stock| > 0 then
      var n := |g.stock| - 1;
      g.(stock := g.stock[..n], waste := g.waste + [Placed(g.stock[n], true, Waste)])
    else if |g.waste| > 0 then
      g.(stock := Recycle(g.waste), waste := [])
    else
      g
  }

  // ---------------------------------------------------------------------
  // Drag and auto-play eligibility.

  /** The position of the first occurrence of `c` in `p`, or -1. */
  function IndexOf(p: seq<Card>, c: Card): (r: int)
    ensures -1 <= r < |p|
    ensures r >= 0 ==> p[r] == c && c !in p[..r]
    ensures r < 0 ==> c !in p
    decreases |p|
  {
    if |p| == 0 then -1
    else if p[0] == c then 0
    else
      var k := IndexOf(p[1..], c);
      assert p == [p[0]] + p[1..];
      if k < 0 then -1
      else
        assert p[..k + 1] == [p[0]] + p[1..][..k];
        k + 1
  }

  /** An in-progress drag: the pile it started from, the index pressed, the cards carried. */
  datatype Drag = Drag(source: PileRef, startIdx: nat, moving: seq<Card>)

  /**
    A press on `card`: from a tableau pile the drag carries the pile from
    the card upward; from any other pile only its top card may be taken;
    the press is refused when the card is face-down, not where its location
    says, or when any carried card is face-down.
   */
  function BeginDrag(g: Game, card: Card): (d: Option<Drag>)
    ensures d.Some? ==>
              && card.location == Some(d.value.source)
              && ValidRef(d.value.source)
              && var p := Pile(g, d.value.source);
              && d.value.startIdx < |p|
              && p[d.value.startIdx] == card
              && d.value.moving == p[d.value.startIdx..]
              && AllFaceUp(d.value.moving)
              && (!d.value.source.Tableau? ==> d.value.startIdx == |p| - 1)
    ensures forall r, i ::
              && card.faceUp && card.location == Some(r)
              && 0 <= i < |Pile(g, r)| && Pile(g, r)[i] == card && card !in Pile(g, r)[..i]
              && (r.Tableau? || i == |Pile(g, r)| - 1)
              && AllFaceUp(Pile(g, r)[i..])
              ==> d == Some(Drag(r, i, Pile(g, r)[i..]))
  {
    if !card.faceUp || card.location.None? then None
    else
      var src := card.location.value;
      var p := Pile(g, src);
      var idx := IndexOf(p, card);
      if idx < 0 then None
      else if !src.Tableau? && idx != |p| - 1 then None
      else
        var moving := if src.Tableau? then p[idx..] else [card];
        if !AllFaceUp(moving) then None
        else Some(Drag(src, idx, moving))
  }

  /**
    Release of a drag over `target` (none when the pointer is over no pile):
    the board changes only when the carried stack may be dropped there.
   */
  function Drop(g: Game, d: Drag, target: Option<PileRef>): (g': Game)
    requires ValidRef(d.source)
    requires target.Some? ==> ValidRef(target.value)
    ensures !(target.Some? && CanDrop(g, d.moving, target.value)) ==> g' == g
    ensures target.Some? && CanDrop(g, d.moving, target.value) ==>
              g' == MoveStack(g, d.source, d.startIdx, target.value)
  {
    if target.Some? && CanDrop(g, d.moving, target.value) then
      MoveStack(g, d.source, d.startIdx, target.value)
    else
      g
  }

  /** The first foundation, from index `i` upward, that accepts `card` alone. */
  function FirstFoundation(g: Game, card: Card, i: nat): (r: Option<nat>)
    requires i <= FoundationCount
    ensures r.Some? ==>
              && i <= r.value < FoundationCount
              && CanDrop(g, [card], Foundation(r.value))
              && forall j :: i <= j < r.value ==> !CanDrop(g, [card], Foundation(j))
    ensures r.None? ==> forall j :: i <= j < FoundationCount ==> !CanDrop(g, [card], Foundation(j))
    decreases FoundationCount - i
  {
    if i == FoundationCount then None
    else if CanDrop(g, [card], Foundation(i)) then Some(i)
    else FirstFoundation(g, card, i + 1)
  }

  datatype Attempt = Attempt(game: Game, moved: bool)

  /**
    Auto-play of `card` (double-click or Enter): a face-up card lying on top
    of the pile its location names goes to the first foundation, in index
    order, that accepts it; otherwise nothing changes.
   */
  function AutoFoundation(g: Game, card: Card): (a: Attempt)
    ensures !a.moved ==> a.game == g
    ensures a.moved ==>
              && card.faceUp && card.location.Some? && ValidRef(card.location.value)
              && var p := Pile(g, card.location.value);
              && |p| > 0 && p[|p| - 1] == card
              && exists i :: 0 <= i < FoundationCount
                   && CanDrop(g, [card], Foundation(i))
                   && (forall j :: 0 <= j < i ==> !CanDrop(g, [card], Foundation(j)))
                   && a.game == MoveStack(g, card.location.value, IndexOf(p, card), Foundation(i))
    ensures card.faceUp && card.location.Some? && ValidRef(card.location.value)
            && |Pile(g, card.location.value)| > 0
            && Pile(g, card.location.value)[|Pile(g, card.location.value)| - 1] == card
            && (exists i :: 0 <= i < FoundationCount && CanDrop(g, [card], Foundation(i)))
            ==> a.moved
  {
    if !card.faceUp || card.location.None? || !ValidRef(card.location.value) then Attempt(g, false)
    else
      var src := card.location.value;
      var p := Pile(g, src);
      if |p| == 0 || p[|p| - 1] != card then Attempt(g, false)
      else
        match FirstFoundation(g, card, 0)
        case None => Attempt(g, false)
        case Some(i) => Attempt(MoveStack(g, src, IndexOf(p, card), Foundation(i)), true)
  }

  // ---------------------------------------------------------------------
  // The opening deal.

  /** Cards dealt before column `c`: 1 + 2 + ... + c. */
  function Dealt(c: nat): nat {
    if c == 0 then 0 else Dealt(c - 1) + c
  }

  lemma {:induction false} DealtMonotone(a: nat, b: nat)
    requires a <= b
    ensures Dealt(a) + a <= Dealt(b) + b
    decreases b - a
  {
    if a < b {
      DealtMonotone(a, b - 1);
    }
  }

  lemma DealtBound(c: nat)
    requires c < TableauCount
    ensures Dealt(c) + c + 1 <= 28
  {
    DealtMonotone(c + 1, TableauCount);
    assert Dealt(7) == 28;
  }

  function EmptyFoundations(): Foundations { seq(FoundationCount, _ => []) }

  function EmptyTableau(): Tableaux { seq(TableauCount, _ => []) }

  /** The deck placed in the stock: every card face-down with location stock. */
  function Stocked(deck: seq<Card>): (s: seq<Card>)
    ensures |s| == |deck|
    ensures forall i :: 0 <= i < |deck| ==> s[i] == Placed(deck[i], false, Stock)
    ensures Strips(s) == Strips(deck)
  {
    var s := seq(|deck|, i requires 0 <= i < |deck| => Placed(deck[i], false, Stock));
    assert Strips(s) == Strips(deck);
    s
  }

  /** One pop of the stock onto tableau column `col`; skipped when the stock is empty. */
  function PopTo(g: Game, col: nat, up: bool): (g': Game)
    requires col < TableauCount
    ensures |g.stock| > 0 ==>
              && g'.stock == g.stock[..|g.stock| - 1]
              && g'.tableau[col] == g.tableau[col] + [Placed(g.stock[|g.stock| - 1], up, Tableau(col))]
    ensures |g.stock| == 0 ==> g' == g
    ensures forall c :: 0 <= c < TableauCount && c != col ==> g'.tableau[c] == g.tableau[c]
    ensures g'.waste == g.waste && g'.foundations == g.foundations && g'.complete == g.complete
  {
    if |g.stock| == 0 then g
    else
      var n := |g.stock| - 1;
      var card := Placed(g.stock[n], up, Tableau(col));
      g.(stock := g.stock[..n], tableau := g.tableau[col := g.tableau[col] + [card]])
  }

  /** Rows `row..col` of column `col`; only the last (row == col) lands face-up. */
  function DealColumn(g: Game, col: nat, row: nat): (g': Game)
    requires col < TableauCount && row <= col + 1
    ensures |g.stock| >= col + 1 - row ==>
              && |g'.stock| == |g.stock| - (col + 1 - row)
              && |g'.tableau[col]| == |g.tableau[col]| + (col + 1 - row)
    ensures forall c :: 0 <= c < TableauCount && c != col ==> g'.tableau[c] == g.tableau[c]
    ensures g'.waste == g.waste && g'.foundations == g.foundations && g'.complete == g.complete
    decreases col + 1 - row
  {
    if row > col then g else DealColumn(PopTo(g, col, row == col), col, row + 1)
  }

  /** Columns `col..6` of the deal; column c takes c+1 cards off the stock. */
  function DealFrom(g: Game, col: nat): (g': Game)
    requires col <= TableauCount
    ensures |g.stock| + Dealt(col) >= 28 ==>
              && |g'.stock| + 28 == |g.stock| + Dealt(col)
              && forall c :: col <= c < TableauCount ==> |g'.tableau[c]| == |g.tableau[c]| + c + 1
    ensures forall c :: 0 <= c < col ==> g'.tableau[c] == g.tableau[c]
    ensures g'.waste == g.waste && g'.foundations == g.foundations && g'.complete == g.complete
    decreases TableauCount - col
  {
    if col == TableauCount then
      assert Dealt(7) == 28;
      g
    else
      DealtBound(col);
      DealFrom(DealColumn(g, col, 0), col + 1)
  }

  /** The board before the deal loop: the whole deck in the stock, everything else empty. */
  function Opening(deck: seq<Card>): (g: Game)
    ensures |g.stock| == |deck| && Strips(g.stock) == Strips(deck)
    ensures forall r :: r != Stock ==> Pile(g, r) == []
    ensures !g.complete
  {
    Game(Stocked(deck), [], EmptyFoundations(), EmptyTableau(), false)
  }

  /** The deal: the deck goes to the stock face-down, then columns 0..6 are filled by popping its top. */
  function Deal(deck: seq<Card>): (g: Game)
    ensures |deck| >= 28 ==>
              && |g.stock| == |deck| - 28
              && forall c :: 0 <= c < TableauCount ==> |g.tableau[c]| == c + 1
    ensures g.waste == [] && g.foundations == EmptyFoundations() && !g.complete
  {
    DealFrom(Opening(deck), 0)
  }

  /** A new game: a fresh deck, shuffled with the given draws, then dealt. */
  function NewGame(picks: seq<nat>): (g: Game)
    requires ValidPicks(picks, DeckSize)
    ensures |g.stock| == DeckSize - 28
    ensures forall c :: 0 <= c < TableauCount ==> |g.tableau[c]| == c + 1
    ensures g.waste == [] && forall i :: 0 <= i < FoundationCount ==> g.foundations[i] == []
    ensures !g.complete
  {
    Deal(Shuffle(CreateDeck(), picks))
  }

  // ---------------------------------------------------------------------
  // Player actions.

  /**
    What a player can do: click the stock, press a card and release it over
    a pile (or over no pile), or auto-play a card (double-click or Enter).
    A double-click on the waste's top card is two auto-plays: the card's own
    handler runs first, then the event reaches the waste pile's handler,
    which auto-plays whatever card is then on top of the waste.
   */
  datatype Action =
    | ClickStock
    | DragTo(card: Card, target: Option<PileRef>)
    | AutoPlay(card: Card)

  predicate ActionOk(a: Action) {
    a.DragTo? && a.target.Some? ==> ValidRef(a.target.value)
  }

  /**
    One player action. A stock click is `Draw` and never touches the
    foundations or the tableau; a press that starts a drag is followed by
    its `Drop`, and one that starts none changes nothing; an auto-play is
    `AutoFoundation`, and one of a face-down card changes nothing. No
    action clears the completion mark.
   */
  function Apply(g: Game, a: Action): (g': Game)
    requires ActionOk(a)
    ensures a.ClickStock? ==> g' == Draw(g)
    ensures a.ClickStock? ==> g'.foundations == g.foundations && g'.tableau == g.tableau
    ensures a.DragTo? && BeginDrag(g, a.card).Some? ==> g' == Drop(g, BeginDrag(g, a.card).value, a.target)
    ensures a.AutoPlay? ==> g' == AutoFoundation(g, a.card).game
    ensures a.DragTo? && BeginDrag(g, a.card).None? ==> g' == g
    ensures a.AutoPlay? && !a.card.faceUp ==> g' == g
    ensures g.complete ==> g'.complete
  {
    match a
    case ClickStock => Draw(g)
    case DragTo(card, target) =>
      (match BeginDrag(g, card)
       case None => g
       case Some(d) => Drop(g, d, target))
    case AutoPlay(card) => AutoFoundation(g, card).game
  }

  /** A sequence of player actions; once the board is marked complete it stays marked. */
  function Play(g: Game, acts: seq<Action>): (g': Game)
    requires forall i :: 0 <= i < |acts| ==> ActionOk(acts[i])
    ensures g.complete ==> g'.complete
    ensures |acts| == 0 ==> g' == g
    decreases |acts|
  {
    if |acts| == 0 then g else Play(Apply(g, acts[0]), acts[1..])
  }
}

=== FILE: rules.dfy ===
/**
  What the rules mean on a valid board: the drop rule accepts exactly the
  drops that keep the destination well-formed, any exposed face-up card can
  be picked up, auto-play moves the top card exactly when some foundation
  takes it, and the board is won exactly when every card sits on the
  foundations, thirteen to a suit.
 */
module KlondikeRules {
  import opened Wrappers
  import opened Cards
  import opened Klondike
  import opened Conservation
  import opened KlondikeProofs

  // ---------------------------------------------------------------------
  // The drop rule.

  /**
    A single face-up card is accepted by a well-formed foundation exactly
    when the foundation, with the card on top, is still Ace-upward in one
    suit.
   */
  lemma FoundationDropIff(g: Game, c: Card, i: nat)
    requires i < FoundationCount && PileOk(Foundation(i), g.foundations[i]) && c.faceUp
    ensures CanDrop(g, [c], Foundation(i)) <==>
              PileOk(Foundation(i), g.foundations[i] + Relocate([c], Foundation(i)))
  {
    var d := g.foundations[i];
    var q := d + Relocate([c], Foundation(i));
    if CanDrop(g, [c], Foundation(i)) {
      FoundationPushOk(d, c, i);
    }
    if PileOk(Foundation(i), q) {
      assert q[|d|] == Relocate([c], Foundation(i))[0];
      if |d| > 0 {
        assert q[0] == d[0] && d[|d| - 1].suit == d[0].suit;
      }
    }
  }

  /** A foundation takes one card at a time: a corollary of the drop rule's own contract, stated on its own. */
  lemma FoundationTakesOneCard(g: Game, m: seq<Card>, i: nat)
    requires i < FoundationCount && CanDrop(g, m, Foundation(i))
    ensures |m| == 1
  {
  }

  /**
    A non-empty face-up run is accepted by a well-formed tableau pile
    exactly when the pile is empty and the run starts with a King, or the
    pile is non-empty and stays a well-formed pile with the run on top.
   */
  lemma TableauDropIff(g: Game, m: seq<Card>, j: nat)
    requires j < TableauCount && PileOk(Tableau(j), g.tableau[j])
    requires |m| > 0 && AllFaceUp(m) && RunOk(m)
    ensures CanDrop(g, m, Tableau(j)) <==>
              if g.tableau[j] == [] then m[0].value == RankCount
              else PileOk(Tableau(j), g.tableau[j] + Relocate(m, Tableau(j)))
  {
    var d := g.tableau[j];
    if |d| > 0 {
      var q := d + Relocate(m, Tableau(j));
      if CanDrop(g, m, Tableau(j)) {
        TableauPushOk(d, m, j);
      }
      if PileOk(Tableau(j), q) {
        assert q[|d| - 1] == d[|d| - 1] && q[|d|] == Relocate(m, Tableau(j))[0];
      }
    }
  }

  /** Nothing is ever dropped on the stock or the waste: a corollary of the drop rule's own contract. */
  lemma NoDropOnStockOrWaste(g: Game, m: seq<Card>)
    ensures !CanDrop(g, m, Stock) && !CanDrop(g, m, Waste)
  {
  }

  // ---------------------------------------------------------------------
  // Picking cards up.

  /**
    On a valid board, pressing any face-up tableau card, or the top card of
    the waste or a foundation, starts a drag that carries that card and
    everything above it.
   */
  lemma DragEligible(g: Game, r: PileRef, i: nat)
    requires Valid(g) && ValidRef(r) && i < |Pile(g, r)|
    requires Pile(g, r)[i].faceUp
    requires r.Tableau? || i == |Pile(g, r)| - 1
    ensures BeginDrag(g, Pile(g, r)[i]) == Some(Drag(r, i, Pile(g, r)[i..]))
  {
    var p := Pile(g, r);
    PileOkOf(g, r);
    FirstIndexIsIndex(g, r, i);
    assert p[i].location == Some(r);
    forall t | 0 <= t < |p[i..]|
      ensures p[i..][t].faceUp
    {
      assert p[i..][t] == p[i + t];
    }
  }

  /** No card of the stock can be picked up. */
  lemma StockNotDraggable(g: Game, i: nat)
    requires Valid(g) && i < |g.stock|
    ensures BeginDrag(g, g.stock[i]) == None
  {
    PileOkOf(g, Stock);
  }

  // ---------------------------------------------------------------------
  // Auto-play.

  /**
    On a valid board, auto-playing the top card of a pile other than the
    stock moves it exactly when some foundation accepts it.
   */
  lemma AutoPlayTop(g: Game, r: PileRef)
    requires Valid(g) && ValidRef(r) && r != Stock && |Pile(g, r)| > 0
    ensures var top := Pile(g, r)[|Pile(g, r)| - 1];
            AutoFoundation(g, top).moved <==>
              exists i :: 0 <= i < FoundationCount && CanDrop(g, [top], Foundation(i))
  {
    PileOkOf(g, r);
  }

  // ---------------------------------------------------------------------
  // Winning.

  lemma {:induction false} TotalLengthZero(ps: seq<seq<Card>>)
    ensures TotalLength(ps) == 0 <==> forall i :: 0 <= i < |ps| ==> ps[i] == []
    decreases |ps|
  {
    if |ps| > 0 {
      var n := |ps| - 1;
      TotalLengthZero(ps[..n]);
      assert forall i :: 0 <= i < n ==> ps[..n][i] == ps[i];
    }
  }

  /** A row of piles of at most `b` cards holds at most |ps|*b, and exactly that only when every pile is full. */
  lemma {:induction false} TotalLengthFull(ps: seq<seq<Card>>, b: nat)
    requires forall i :: 0 <= i < |ps| ==> |ps[i]| <= b
    ensures TotalLength(ps) <= |ps| * b
    ensures TotalLength(ps) == |ps| * b ==> forall i :: 0 <= i < |ps| ==> |ps[i]| == b
    decreases |ps|
  {
    if |ps| > 0 {
      var n := |ps| - 1;
      assert forall i :: 0 <= i < n ==> ps[..n][i] == ps[i];
      TotalLengthFull(ps[..n], b);
      assert |ps| * b == n * b + b;
    }
  }

  /** On a valid board the game is won exactly when stock, waste and tableau are all empty. */
  lemma WonIffCleared(g: Game)
    requires Valid(g)
    ensures Won(g) <==>
              g.stock == [] && g.waste == [] && forall c :: 0 <= c < TableauCount ==> g.tableau[c] == []
  {
    TotalLengthZero(g.tableau);
  }

  /** A won valid board has all thirteen cards of a suit on every foundation. */
  lemma WonFoundationsFull(g: Game)
    requires Valid(g) && Won(g)
    ensures forall i :: 0 <= i < FoundationCount ==> |g.foundations[i]| == RankCount
  {
    forall i | 0 <= i < FoundationCount
      ensures |g.foundations[i]| <= RankCount
    {
      var f := g.foundations[i];
      PileOkOf(g, Foundation(i));
      if |f| > 0 {
        OnBoardIsDeckCard(g, Foundation(i), |f| - 1);
      }
    }
    TotalLengthFull(g.foundations, RankCount);
  }

  // ---------------------------------------------------------------------
  // The completion mark.

  lemma FoundationsFromPiles(g: Game, g': Game)
    requires forall i :: 0 <= i < FoundationCount ==> Pile(g', Foundation(i)) == Pile(g, Foundation(i))
    ensures g'.foundations == g.foundations
  {
    assert forall i :: 0 <= i < FoundationCount ==> g'.foundations[i] == Pile(g', Foundation(i));
  }

  /** A move onto a tableau pile never adds to the foundations. */
  lemma TableauMoveNoGain(g: Game, src: PileRef, k: nat, j: nat)
    requires ValidRef(src) && j < TableauCount
    ensures FoundationTotal(MoveStack(g, src, k, Tableau(j))) <= FoundationTotal(g)
  {
    var g' := MoveStack(g, src, k, Tableau(j));
    if src.Foundation? && src != Tableau(j) {
      var p := Pile(g, src);
      assert g'.foundations == g.foundations[src.index := Pile(g', src)];
      TotalLengthUpdate(g.foundations, src.index, Pile(g', src));
    } else {
      FoundationsFromPiles(g, g');
    }
  }

  /** An action sets the completion mark only on a board it leaves won. */
  lemma CompleteOnlyOnWin(g: Game, a: Action)
    requires ActionOk(a)
    ensures Apply(g, a).complete && !g.complete ==> Won(Apply(g, a))
  {
  }

  /**
    An action that turns an unwon board holding the deck into a won one
    always sets the completion mark: only a drop on a foundation can win,
    and every such drop runs the win check.
   */
  lemma WinSetsComplete(g: Game, a: Action)
    requires ActionOk(a) && HoldsDeck(g)
    ensures Won(Apply(g, a)) && !Won(g) ==> Apply(g, a).complete
  {
    match a
    case ClickStock =>
    case DragTo(card, target) =>
      var d := BeginDrag(g, card);
      if d.Some? && target.Some? && CanDrop(g, d.value.moving, target.value) && target.value.Tableau? {
        TableauMoveNoGain(g, d.value.source, d.value.startIdx, target.value.index);
      }
    case AutoPlay(card) =>
  }
}

=== FILE: wrappers.dfy ===
/** The optional value shared by both games. */
module Wrappers {
  datatype Option<+T> = None | Some(value: T)
}
